=== FILE: README.md ===
# Comic scraper download pipeline, modelled in Dafny

The comic scraper downloads a comic from a reading site into a Cloudinary
asset store and records its metadata in a `comics` table. This project
models the sequential logic of that download:

- `main` fetches the comic page with retries.
- It scrapes the metadata and uploads the cover once.
- It lists the chapters from the "Chapter N(.M)" link texts and sorts them by number.
- It reads a starting chapter and upserts the metadata row by slug.
- It filters the chapters by the start number, then by an existence pre-check against the asset store.
- It hands the rest to the chapter pipeline.
- For each chapter, the pipeline derives a key from the URL's digit run and skips the chapter if the store already has anything under that key.
- Otherwise it downloads each image with its own retry loop and uploads it under `slug/chapter-D/stem`.

Every side effect is abstracted:

- **Asset store:** a `set<string>` of public ids. Uploads target `folder + "/" + filename`. `folder_exists` and `file_exists` are prefix tests on that set, and a query that raises reads as absent. They are functions of the store that return a boolean, so they are read-only by construction.
- **Table:** a `map<string, Comic>` keyed by slug.
- **Network answers:** each HTTP attempt's answer is a parameter indexed by attempt number (`nat -> Outcome`).
- **Observable effects:** requests, fixed sleeps, the random pre-download pause and upload calls are recorded in an event log (`Effects.Event`). Nothing is performed.

Modules follow the program's structure:

| module | file | contents |
|---|---|---|
| `Effects` | effects.dfy | results, exceptions, event logs |
| `Text` | text.dfy | digit runs, marker search, path segments |
| `AssetStore` | asset_store.dfy | `upload_image`, `folder_exists`, `file_exists` |
| `Fetcher` | fetcher.dfy | `fetch_data_with_retry` |
| `Downloader` | downloader.dfy | `download_image` with its key derivation, `handle_cover_image` |
| `ChapterList` | chapter_list.dfy | `get_chapter_list` |
| `ComicModel` | comic.dfy | the `Comic` record, its enums, the unique-slug invariant |
| `Metadata` | metadata.dfy | `scrape_comic_meta`, `save_comic_metadata` |
| `ChapterPipeline` | pipeline.dfy | `scrape_chapter_images` |
| `Orchestrator` | orchestrator.dfy | the filtering and sequencing in `main` |
| `Sanitize` | sanitize.dfy | `sanitize_filename` |

Behaviours the model pins down:

- **Existence checks are string-prefix tests.** Chapter 10's images make chapter 1 look complete. A stored `slug/cover2` makes the cover look present.
- **The pipeline key keeps only the URL's digit run.** Chapter 12.5 (`…chapter-12-5…`) shares the folder `chapter-12` with chapter 12. Once a scrape of one of them has returned a URL or uploaded an image, the other is skipped (`ChapterPipeline.SecondScrapeSkips`).
- **The pre-check in `main` builds its key from the float's rendering** (`chapter-2.0`). A rendering that is not a bare digit run and has no '/' can never be a prefix of an id the pipeline stores (`chapter-2/…`). So the pre-check drops nothing the pipeline stored, and skipping is left to the pipeline's own check (`Orchestrator.PrefilterDropsNothing`).
- **A 429 response sleeps `Retry-After` (60 when absent) and spends one of the fixed iterations.** The `continue` sits inside `for attempt in range(retries)`, so three 429s end the call with None and no upload.
- **A cover that is already stored is not uploaded again.** Its URL is then missing from the metadata, so a first insert of the comic fails on the missing key and rolls back.
- **Only the comic page in `main` is fetched with retries.** The chapter page and the comic page inside `scrape_comic_meta` use the plain `fetch_data`: one GET, no retry.

## Model

| member | source | states |
|---|---|---|
| AssetStore.AnyUnder | src/services/cloudinary_service.py:56-63 | an existence query that raises never reports presence |
| AssetStore.AnyUnderIsPrefixTest | src/services/cloudinary_service.py:56-63 | the check holds exactly when the query succeeds and some stored public id starts with the key, character by character |
| AssetStore.FolderExists | src/services/cloudinary_service.py:49-63 | holds exactly when the query does not raise and some stored id starts with the folder path, which need not end at a '/' |
| AssetStore.FileExists | src/services/cloudinary_service.py:65-80 | holds exactly when the query does not raise and some stored id starts with folder/filename |
| AssetStore.ChapterOneSeesChapterTen | src/services/cloudinary_service.py:58 | `folder_exists("s/chapter-1")` holds when only `s/chapter-10/001` is stored, while `s/chapter-2` does not |
| AssetStore.CoverSeesCover2 | src/services/cloudinary_service.py:75 | `file_exists("s", "cover")` holds when only `s/cover2` is stored |
| AssetStore.UploadImage | src/services/cloudinary_service.py:18-32 | a successful upload adds exactly the id folder/filename and returns the secure URL; an SDK error leaves the store alone and returns None instead of escaping |
| AssetStore.UploadTwiceIsUploadOnce | src/services/cloudinary_service.py:28 | with `unique_filename=False`, a second upload to the same folder and filename leaves the same store as the first |
| AssetStore.UploadThenExists | src/services/cloudinary_service.py:28 | after a successful upload both the folder check and the file check for that pair hold |
| AssetStore.IdUnderFolder | src/services/cloudinary_service.py:49-60 | any stored id of the form folder/filename makes `folder_exists(folder)` hold |
| ComicModel.ParseType | src/models/comic.py:12 | a type string is accepted exactly when it is manga, manhwa or manhua, and then names the value read |
| ComicModel.ParseStatus | src/models/comic.py:13 | a status string is accepted exactly when it is ongoing or completed |
| ComicModel.EnumNamesRoundTrip | src/models/comic.py:12-13 | every enum value is stored under its name and read back as itself |
| ComicModel.SlugLookup | src/models/comic.py:20 | under the unique-slug invariant, "some row has this slug" is "the slug is a key" |
| Metadata.NewRow | src/comic_scraper.py:127-140 | a new row exists exactly when the metadata carries a cover URL and a type and status in their enums; it then copies every field, stamps `now`, and keeps the rating as the one nullable column |
| Metadata.SaveComicMetadata | src/comic_scraper.py:123-152 | preserves the unique-slug invariant; a database error changes nothing; an existing slug gets only a new `updated_on`, every other field and row untouched; a missing slug gets a full row built from the metadata, or nothing when building it fails |
| Metadata.SaveTwiceOnlyTouches | src/comic_scraper.py:143-147 | a second save of a stored slug, with any metadata, changes only that row's timestamp |
| Metadata.ScrapeComicMeta | src/comic_scraper.py:190-208 | the page is fetched first, by a single GET; a failed page or missing cover element yields None after that GET alone, with the store unchanged; otherwise the result is None exactly when the cover handling raises, the log is the GET followed by the cover's, the store is what the cover handling left, and the metadata's cover URL is what it returned; a returned cover URL is non-empty and stored under slug/cover; when a cover is already stored, nothing is downloaded and the metadata has no cover URL |
| Metadata.StoredCoverBlocksFirstInsert | src/comic_scraper.py:198-201 | with a cover already stored and the slug not in the table, the save leaves the table unchanged |
| Fetcher.FetchFrom | src/comic_scraper.py:41-54 | from any attempt on: an escaping error means every remaining attempt failed, and it is the last attempt's error; a returned value is the body of an attempt before which every attempt failed |
| Fetcher.FetchFromRequests | src/comic_scraper.py:41-54 | from any attempt on, between one request and one per remaining attempt |
| Fetcher.FetchDataWithRetry | src/comic_scraper.py:39-54 | no request and None for a non-positive bound; otherwise between 1 and max_retries requests; an escaping error means every attempt failed and is the last one's; a returned value is the body of the first successful attempt |
| Fetcher.FetchDataWithRetrySpec | src/comic_scraper.py:39-54 | no request and None for a non-positive bound; otherwise between 1 and max_retries requests, the first success's body returned after sleeps of 2·2^k, and the last error re-raised with no sleep after it |
| Fetcher.FetchFromFirstSuccess | src/comic_scraper.py:41-54 | the first successful attempt k decides the result: k+1 requests with the back-off sleeps between them |
| Fetcher.FetchFromAllFail | src/comic_scraper.py:48-54 | when every attempt fails, all are made and the final attempt's error escapes |
| Fetcher.TwoFailuresThenSuccess | src/comic_scraper.py:52-54 | with the default bound, two failures then a success sleep 2 s and 4 s and return the third body |
| Fetcher.ThreeFailures | src/comic_scraper.py:49-51 | with the default bound, three failures re-raise the third error after sleeping only 2 s and 4 s |
| Downloader.Stem | src/comic_scraper.py:100 | the filename is the start of the URL's last '/' segment up to its first '.', so it contains neither '/' nor '.' |
| Text.LastSegment | src/comic_scraper.py:100 | a suffix of the input with no '/', which is the whole input or follows a '/' |
| Text.BeforeDot | src/comic_scraper.py:100 | a prefix of the input with no '.', which is the whole input or is followed by a '.' |
| Text.LastSegmentAfterSlash | src/comic_scraper.py:100 | `split('/')[-1]` yields exactly what follows the final '/' |
| Text.BeforeDotOfDotted | src/comic_scraper.py:100 | `split('.')[0]` yields exactly what precedes the first '.' |
| Downloader.AssetTarget | src/comic_scraper.py:95-102 | a cover goes to (slug, "cover") whatever the chapter; a chapter image goes to slug/chapter-N with the URL's stem; with neither there is no target |
| Downloader.Finish | src/comic_scraper.py:95-109 | the iteration with a good response makes its one GET and no pause; it uploads exactly when a target can be derived, and then the store is the upload's and the result its secure URL, or "" when the SDK refused; otherwise ValueError escapes and the store is unchanged |
| Downloader.DownloadFrom | src/comic_scraper.py:83-114 | from any iteration on: the requests fit in the remaining iterations; exactly one upload happens iff the call reached upload_image, and only then does the store change, by the upload to the derived target; a re-raised client error means the last iteration answered with one; the closed form is `DownloadFromAfterWaits` |
| Downloader.DownloadImage | src/comic_scraper.py:74-114 | one pause before the whole call and none between attempts; at most `retries` GETs and one upload; with neither cover nor chapter nothing is stored; its outcomes in closed form are `DownloadImageFirstSuccess`, `DownloadImageLastClientError`, `DownloadImageEscapes` and `DownloadImageRunsOut` |
| Downloader.ChainWaits | src/comic_scraper.py:83-90 | a run of iterations that each sleep and continue contributes one GET and one sleep apiece, in order, in front of whatever the iteration after them does |
| Downloader.DownloadFromAfterWaits | src/comic_scraper.py:83-114 | if iterations `attempt .. k-1` are 429s with a usable Retry-After or client errors before the last iteration, the loop from `attempt` has the result and store of iteration `k`, and its log is a GET plus a sleep (the server's delay, or 2^j s) for each of them, then iteration `k`'s log |
| Downloader.DownloadImageFirstSuccess | src/comic_scraper.py:74-109 | when iteration `k` is the first good response and every earlier one continued, the call returns and stores what the upload step does, after the pause, those GETs and sleeps, and one GET |
| Downloader.DownloadImageLastClientError | src/comic_scraper.py:110-112 | a client error on the last iteration, after iterations that all continued, is re-raised with nothing stored, after their GETs and sleeps and one more GET |
| Downloader.DownloadImageRunsOut | src/comic_scraper.py:83-114 | when every iteration continues, the loop ends without a return: None, nothing stored, one GET and one sleep per iteration |
| Downloader.EscapeLeavesAtOnce | src/comic_scraper.py:86-112 | an iteration whose GET times out or fails with anything but a client error, or whose 429 carries a Retry-After that `int()` rejects, raises that exception (ValueError for the header) after its one GET, with nothing stored |
| Downloader.DownloadImageEscapes | src/comic_scraper.py:83-114 | such an exception, after iterations that all continued, escapes download_image with nothing stored, after the pause, their GETs and sleeps, and the GET that raised |
| Downloader.ClientErrorsThroughout | src/comic_scraper.py:83-114 | client errors on all three default iterations sleep 1 s and 2 s between them and re-raise the third |
| Downloader.ThrottledThroughout | src/comic_scraper.py:86-90 | when every iteration answers 429 with a usable Retry-After, each iteration is spent sleeping the server's delay, and the call returns None without upload |
| Downloader.TooManyRequestsSpendsIterations | src/comic_scraper.py:86-90 | 429 (5 s), 429 (no header) and a client error exhaust three iterations: the client error is re-raised after sleeps of 5 s and 60 s |
| Downloader.RetryAfterThenSuccess | src/comic_scraper.py:86-106 | a 429 with Retry-After 5 then a good response: one 5 s sleep, the GET repeated, one upload under slug/chapter-N/stem, and its secure URL returned |
| Downloader.StemOfImageUrl | src/comic_scraper.py:100 | an image URL `dir/name.ext` is filed under `name` |
| Downloader.NoTargetRaisesAtOnce | src/comic_scraper.py:98-102 | with neither cover nor chapter, the first good response raises ValueError, which escapes without retry or upload |
| Downloader.FailedUploadNotRetried | src/comic_scraper.py:104-109 | an upload the SDK refuses makes the call return "" after a single GET, with nothing stored |
| Downloader.DownloadIgnoresStore | src/comic_scraper.py:83-114 | what a download returns and requests does not depend on what the store holds |
| Downloader.HandleCoverImage | src/comic_scraper.py:177-187 | no download when the cover check holds; otherwise the cover download's requests, store and outcome, with an empty URL turned into None; a returned URL is non-empty and leaves the cover stored; the store grows at most by slug/cover |
| Downloader.CoverUploadedWhenAbsent | src/comic_scraper.py:177-187 | an absent cover whose first good response is uploaded with a non-empty secure URL: that URL is returned, slug/cover is stored, after the pause, the continuing iterations' GETs and sleeps, one GET and the upload |
| Downloader.CoverHandledOnce | src/comic_scraper.py:178-180 | after one successful cover upload, handling the cover again downloads nothing and returns None |
| ChapterList.NewlinesToSpaces | src/comic_scraper.py:247 | every newline becomes a space and every other character is kept in place |
| ChapterList.FindNumberText | src/comic_scraper.py:248 | there is a match exactly when "Chapter " followed by a digit occurs in the text; the match has a non-empty whole part and a fraction made of digits only |
| ChapterList.NumberValue | src/comic_scraper.py:251 | "Chapter N.M" reads as a number in [N, N+1), and "Chapter N" reads as N; its exact value is `NumberValueExact` |
| ChapterList.NumberValueExact | src/comic_scraper.py:251 | `float("N.M")` read exactly is the integer the digits NM denote, divided by 10^(number of digits of M) |
| ChapterList.LinkNumber | src/comic_scraper.py:247-251 | a link text gives no number exactly when, after its newlines become spaces, "Chapter " followed by a digit occurs nowhere; a number read is never negative |
| ChapterList.TrailingZeroReadsAlike | src/comic_scraper.py:251 | a trailing zero in the fraction does not change the number read ("2.50" reads as "2.5") |
| ChapterList.ParsesWholeAndFraction | src/comic_scraper.py:248-251 | in any text where "Chapter " followed by a digit does not occur earlier, "Chapter N.M" with digit runs N and M, followed by a non-digit or the end, reads as whole part N and fraction M |
| ChapterList.ParsesWhole | src/comic_scraper.py:248-251 | in any text where "Chapter " followed by a digit does not occur earlier, "Chapter N" followed by neither a digit nor a '.' with a digit reads as N with no fraction |
| ChapterList.ParsesTwelveAndAHalf | src/comic_scraper.py:247-251 | "Chapter 12.5" reads as 12.5 |
| ChapterList.ParsesOneAndAQuarter | src/comic_scraper.py:247-251 | "Chapter 1.25" reads as 1.25 |
| ChapterList.ParsesAcrossNewline | src/comic_scraper.py:247-251 | "Chapter\n7" reads as 7 once the newline is a space |
| ChapterList.NoNumberWithoutMarker | src/comic_scraper.py:248-249 | "Ch. 3" is dropped |
| ChapterList.Matched | src/comic_scraper.py:245-253 | the matched links are read exactly when no matched link lacks its href, and then there is one chapter per link whose text matches |
| ChapterList.MatchedCoversLinks | src/comic_scraper.py:246-253 | each link whose text matches has an href and yields, at the position that counts the matching links before it, the chapter with its number and its href |
| ChapterList.MatchedFromLinks | src/comic_scraper.py:245-253 | every chapter read comes from a link whose text carries its number and whose href is its URL |
| ChapterList.InsertByNumber | src/comic_scraper.py:255 | insertion keeps the multiset plus the new chapter and keeps the list sorted |
| ChapterList.SortByNumber | src/comic_scraper.py:255 | the result is sorted by number and a permutation of the input |
| ChapterList.InsertKeepsEqualOrder | src/comic_scraper.py:255 | an inserted chapter goes before the chapters with the same number and leaves their order alone |
| ChapterList.SortIsStable | src/comic_scraper.py:255 | chapters with the same number leave the sort in their input order |
| ChapterList.GetChapterList | src/comic_scraper.py:242-258 | sorted ascending; a permutation of the matched links; [] when reading a matched link raises |
| ChapterList.GetChapterListFromLinks | src/comic_scraper.py:245-253 | every listed chapter comes from a link whose text carries its number and whose href is its URL |
| ChapterList.GetChapterListIsStable | src/comic_scraper.py:255 | chapters with equal numbers keep page order |
| Text.LeadingDigits | src/comic_scraper.py:213 | the greedy `\d*`: the longest prefix made of digits, followed by a non-digit or the end (empty when the string does not start with a digit) |
| Text.LeadingDigitsOfRun | src/comic_scraper.py:213 | a digit run followed by a non-digit or by nothing is exactly what the greedy `\d*` takes |
| Text.FindMarker | src/comic_scraper.py:213 | the leftmost position at or after `from` where the marker is followed by a digit, and None exactly when there is none |
| ChapterPipeline.ChapterDigits | src/comic_scraper.py:213-217 | a non-empty digit run after the first "chapter-" followed by a digit, and None exactly when the URL has no "chapter-" followed by a digit |
| ChapterPipeline.ChapterDigitsOfUrl | src/comic_scraper.py:213-217 | for any URL whose first "chapter-" followed by a digit is followed by the digit run D and then a non-digit or the end, the key is D |
| ChapterPipeline.HalfChapterSharesKey | src/comic_scraper.py:213-218 | "chapter-12-5" and "chapter-12" both key as 12 |
| ChapterPipeline.ImageStaysInChapter | src/comic_scraper.py:98-104 | a chapter image download adds at most its own id under the chapter folder |
| ChapterPipeline.Kept | src/comic_scraper.py:233-234 | a URL is kept exactly when it is present and non-empty |
| ChapterPipeline.DownloadEach | src/comic_scraper.py:230-236 | only non-empty URLs, at most one per image; the store grows only by ids of this chapter's images; at most three requests and one upload per image |
| ChapterPipeline.KeptUrlStored | src/comic_scraper.py:98-106 | an image download that returns a non-empty URL has stored the image's id under the chapter folder |
| ChapterPipeline.UrlsLeaveFolder | src/comic_scraper.py:230-236 | a download loop that returned any URL leaves the chapter folder non-empty |
| ChapterPipeline.DeliveredStaysStored | src/comic_scraper.py:230-236 | once the loop reaches an image and its upload succeeds, its id is in the store the loop leaves, whatever later images do, a raising download included |
| ChapterPipeline.DownloadEachInOrder | src/comic_scraper.py:230-236 | the loop fails exactly when some image's download raises; otherwise it returns the non-empty URLs of the downloads in page order |
| ChapterPipeline.ScrapeChapterImages | src/comic_scraper.py:211-240 | no match, or an existing folder, returns [] without any request; a failed page returns [] after one request; only non-empty URLs are returned; the store only grows, and only by this chapter's image ids |
| ChapterPipeline.ScrapeReturnsUrlsInOrder | src/comic_scraper.py:228-240 | once the page is fetched, the result is [] if any download raises and otherwise the non-empty URLs in page order |
| ChapterPipeline.ScrapeKeepsDelivered | src/comic_scraper.py:225-240 | when the page is fetched, an image whose upload succeeded before any download raised stays stored, even when the chapter then returns [] |
| ChapterPipeline.UploadLeavesFolder | src/comic_scraper.py:218-232 | a scrape that returned a URL, or that changed the store, leaves its chapter folder non-empty |
| ChapterPipeline.NewIdUnderFolder | src/services/cloudinary_service.py:58-60 | a store that grew only by a chapter's image ids has that chapter's folder non-empty |
| ChapterPipeline.SecondScrapeSkips | src/comic_scraper.py:218-223 | after a scrape that returned a URL, or that changed the store, any URL with the same digits is skipped with no request |
| ChapterPipeline.ChapterTenHidesChapterOne | src/comic_scraper.py:218-223 | an image stored under chapter-10 makes chapter 1 be skipped as complete |
| Orchestrator.Allows | src/comic_scraper.py:313 | with a non-zero start, a chapter passes exactly when its number is at least the start; with no start or a start of 0, every chapter passes |
| Orchestrator.NotYetStored | src/comic_scraper.py:318 | a chapter passes exactly when the query for its rendered key raises or no stored id starts with that key |
| Orchestrator.KeepFromStart | src/comic_scraper.py:312-313 | keeps exactly the chapters the start allows (all of them for no start or a start of 0), in their order, and keeps a sorted list sorted |
| Orchestrator.KeepFromStartCounts | src/comic_scraper.py:312-313 | every copy of an allowed chapter is kept and no copy of any other: the result is the sub-multiset of allowed chapters |
| Orchestrator.KeepAllWhenAllAllowed | src/comic_scraper.py:312-313 | when every chapter passes, the list is kept unchanged |
| Orchestrator.KeepFromStartIsSuffix | src/comic_scraper.py:312-313 | on the sorted list a non-zero start keeps a suffix, and everything before it is below the start |
| Orchestrator.DropExisting | src/comic_scraper.py:316-319 | keeps exactly the chapters whose rendered key has no stored id under it, in their order |
| Orchestrator.DropExistingCounts | src/comic_scraper.py:316-319 | every copy of a chapter not yet stored is kept and no copy of any other |
| Orchestrator.DropNothingWhenNoneStored | src/comic_scraper.py:316-319 | with no key stored, the pre-check keeps the list unchanged |
| Orchestrator.PipelineIdsAreChapterImageIds | src/comic_scraper.py:99-100 | every id the pipeline uploads is title/chapter-D/filename with D a digit run |
| Orchestrator.PrefilterKeyMissesChapterIds | src/comic_scraper.py:318 | a rendered number that is not a bare digit run and has no '/' never prefixes such an id |
| Orchestrator.PrefilterDropsNothing | src/comic_scraper.py:316-319 | when every stored id under title/chapter- is a chapter image id and no chapter's rendering is a bare digit run or holds a '/', the pre-check drops no chapter |
| Orchestrator.CoverKeepsChapterIdsWellFormed | src/comic_scraper.py:177-187 | the cover's id title/cover is not under title/chapter-, so storing it keeps every id there a chapter image id |
| Orchestrator.Main | src/comic_scraper.py:274-323 | the dispatched chapters are exactly the chapter list passed through the start filter and then the pre-check, and are non-empty, sorted and in list order; every chapter of the list that passes both filters is dispatched, and "nothing new" means none passes both; the table changes only when main gets past the prompt, and then by the save; no chapters or an unreadable start means no save; the store grows at most by the cover; at most 3 + 1 + 3 requests happen before dispatch |
| Orchestrator.MetaRequests | src/comic_scraper.py:190-198 | the metadata scrape makes its own GET and at most one cover download |
| Orchestrator.StartTwoSelectsFromTwo | src/comic_scraper.py:307-313 | chapters 1, 2, 2.5 and 3 with start 2 select 2, 2.5 and 3; start 0 or no start selects all four |
| Sanitize.RemoveForbidden | src/comic_scraper.py:35 | none of `<>:"/\|?*` remains, and every other character keeps its count |
| Sanitize.RemoveForbiddenSingle | src/comic_scraper.py:35 | a lone character is kept exactly when it is not one of `<>:"/\|?*` |
| Sanitize.RemoveForbiddenAppend | src/comic_scraper.py:35 | the removal from a concatenation is the concatenation of the removals, so the kept characters stay in their order |
| Sanitize.RemoveForbiddenKeepsClean | src/comic_scraper.py:35 | a string without those characters passes through unchanged |
| Sanitize.Strip | src/comic_scraper.py:37 | the infix after the leading whitespace, followed only by whitespace, starting and ending with a non-space (Python's `isspace` code points) |
| Sanitize.StripKeepsCharacters | src/comic_scraper.py:37 | every character strip keeps comes from its argument |
| Sanitize.StripTwice | src/comic_scraper.py:37 | strip is idempotent |
| Sanitize.SanitizeFilename | src/comic_scraper.py:33-37 | the result neither starts nor ends with whitespace and is no longer than the normalised text |
| Sanitize.SanitizeCleanWhenNormalised | src/comic_scraper.py:35-36 | when normalisation leaves the cleaned text alone, no forbidden character remains |
| Sanitize.SanitizeTwice | src/comic_scraper.py:33-37 | under that condition sanitising twice is sanitising once |

## Left out

- HTTP transport, headers and the random User-Agent choice are left out. Each attempt's answer is a parameter: a body or an exception for pages; OK, 429 with its Retry-After, client error or other error for images.
- Reading an image's body after a good status is folded into the attempt's answer.
- HTML parsing is left out: `safe_select`, `extract_comic_meta` and the link and image selection. The extracted fields, link texts and hrefs, and image URLs are inputs. This also covers the title clean-up in `extract_comic_meta` and the `{}` it returns on error.
- A chapter image element without `src` raises before any download and yields []; this is not modelled, since the image URLs are an input.
- The `rate_limited` pause is recorded as one `Throttle` event before each `download_image` call. Its random duration is not modelled.
- Sleeping is recorded as `Sleep` events, not performed.
- Concurrency is left out: the semaphore, `asyncio.gather`, `download_with_progress` and tqdm. `main` ends with the list of chapters it dispatches, and `MAX_CONCURRENT_DOWNLOADS` is kept as a constant only.
- Python floats are not modelled:
  - Chapter numbers are exact reals read from their decimal digits.
  - The float-to-string rendering in the pre-check key is a parameter.
  - A start of "nan" or "inf" is not modelled.
- `unicodedata.normalize('NFKD', …)` is a parameter, because it depends on the Unicode tables.
- Sanitize.SanitizeFilename: does not promise a result free of `<>:"/\|?*`, because NFKD runs after the removal and can produce those characters again.
- DropExistingCounts: the pre-check's query faults are modelled per rendered key, not per call. Two chapters with the same number therefore fail their `folder_exists` query alike, and the exact counts rest on that; a transient fault that hits only one of them is not modelled.
- `\d` is taken as the ASCII digits; Python's `re` also matches other Unicode decimal digits.
- The `strip()` of link texts in `get_chapter_list` is not applied. A match starts with 'C' and ends with a digit, so surrounding whitespace never changes it.
- `urljoin` is left out: the comic page URL is an input.
- `datetime.now()` is the parameter `now`.
- The database is a map from slug to row, and the auto-incremented `id` is not modelled. A type or status outside its enum is taken to be refused by the database, like any error, with a rollback.
- Upload exceptions other than the SDK's own error are not modelled.
- Printing and logging are left out.
- `get_image_url`, the Cloudinary configuration and `.env` loading, `src/services/db_connection.py` and `src/app.py` are not part of this model. They are library glue.

=== FILE: asset_store.dfy ===
/** The asset host (Cloudinary) as the scraper uses it: a set of public ids,
    a prefix query behind both existence checks, and an upload that files an
    image under a deterministic id. */
module AssetStore {
  import opened Effects

  /** Every public id the host holds. */
  type Store = set<string>

  /** What the SDK's upload call does: succeed with a secure URL, or raise
      `cloudinary.exceptions.Error`. */
  datatype UploadOutcome = Uploaded(secureUrl: string) | SdkError

  /** The id an upload with `folder` and `public_id = filename` receives. */
  function PublicId(folder: string, filename: string): string
  {
    folder + "/" + filename
  }

  /** What `api.resources(prefix = prefix)` lists: every stored id that
      starts with `prefix`, character by character. */
  function Listing(store: Store, prefix: string): set<string>
  {
    set id | id in store && prefix <= id
  }

  /** The shared body of the two existence checks: the query with
      `max_results=1` returns a resource. `fault` stands for the query
      raising, which the checks catch and report as absent. */
  function AnyUnder(store: Store, prefix: string, fault: bool): (b: bool)
    ensures fault ==> !b
  {
    !fault && |Listing(store, prefix)| > 0
  }

  /** `folder_exists(folderPath)`: some stored id starts with the path, which
      need not end at a '/'. */
  function FolderExists(store: Store, folderPath: string, fault: bool): (b: bool)
    ensures b <==> !fault && exists id :: id in store && folderPath <= id
  {
    AnyUnderIsPrefixTest(store, folderPath, fault);
    AnyUnder(store, folderPath, fault)
  }

  /** `file_exists(folder, filename)`: the same query on folder + "/" + filename. */
  function FileExists(store: Store, folder: string, filename: string, fault: bool): (b: bool)
    ensures b <==> !fault && exists id :: id in store && PublicId(folder, filename) <= id
  {
    AnyUnderIsPrefixTest(store, PublicId(folder, filename), fault);
    AnyUnder(store, PublicId(folder, filename), fault)
  }

  /** The existence checks are string-prefix tests: they hold exactly when the
      query succeeds and some stored id starts with the key. */
  lemma AnyUnderIsPrefixTest(store: Store, prefix: string, fault: bool)
    ensures AnyUnder(store, prefix, fault) <==> !fault && exists id :: id in store && prefix <= id
  {
    if exists id :: id in store && prefix <= id {
      var id :| id in store && prefix <= id;
      assert id in Listing(store, prefix);
    }
  }

  /** An upload into `folder` makes the folder's existence check hold. */
  lemma IdUnderFolder(store: Store, folder: string, filename: string)
    requires PublicId(folder, filename) in store
    ensures FolderExists(store, folder, false)
  {
    var id := PublicId(folder, filename);
    assert id[..|folder|] == folder;
    AnyUnderIsPrefixTest(store, folder, false);
  }

  /** A chapter folder's key is not a path segment: "s/chapter-1" is reported
      present when only "s/chapter-10/001" is stored. */
  lemma ChapterOneSeesChapterTen()
    ensures FolderExists({"s/chapter-10/001"}, "s/chapter-1", false)
    ensures !FolderExists({"s/chapter-10/001"}, "s/chapter-2", false)
  {
    assert "s/chapter-1" <= "s/chapter-10/001";
    AnyUnderIsPrefixTest({"s/chapter-10/001"}, "s/chapter-1", false);
    AnyUnderIsPrefixTest({"s/chapter-10/001"}, "s/chapter-2", false);
    assert !("s/chapter-2" <= "s/chapter-10/001") by {
      assert "s/chapter-10/001"[10] == '1';
    }
  }

  /** `file_exists(s, "cover")` holds when only "s/cover2" is stored. */
  lemma CoverSeesCover2()
    ensures FileExists({"s/cover2"}, "s", "cover", false)
  {
    assert PublicId("s", "cover") <= "s/cover2";
    AnyUnderIsPrefixTest({"s/cover2"}, PublicId("s", "cover"), false);
  }

  /** `upload_image(image, folder, filename)`: the new store, and the SDK's
      result (here its secure URL) or None when the SDK raised its own error,
      which never escapes. */
  function UploadImage(store: Store, folder: string, filename: string, outcome: UploadOutcome): (r: (Store, Option<string>))
    ensures outcome.Uploaded? ==> PublicId(folder, filename) in r.0 && r.1 == Some(outcome.secureUrl)
    ensures outcome.SdkError? ==> r.0 == store && r.1 == None
    ensures store <= r.0 && r.0 - store <= {PublicId(folder, filename)}
  {
    match outcome
    case Uploaded(url) => (store + {PublicId(folder, filename)}, Some(url))
    case SdkError => (store, None)
  }

  /** With `unique_filename=False` the id is deterministic: uploading the same
      pair twice leaves the store as one upload does. */
  lemma {:induction false} UploadTwiceIsUploadOnce(store: Store, folder: string, filename: string, first: UploadOutcome, second: UploadOutcome)
    requires first.Uploaded?
    ensures UploadImage(UploadImage(store, folder, filename, first).0, folder, filename, second).0
         == UploadImage(store, folder, filename, first).0
  {
    var once := UploadImage(store, folder, filename, first).0;
    assert PublicId(folder, filename) in once;
    assert once + {PublicId(folder, filename)} == once;
  }

  /** Once an upload succeeds, both existence checks on its folder and on its
      file report present (unless the query itself fails). */
  lemma UploadThenExists(store: Store, folder: string, filename: string, url: string)
    ensures FolderExists(UploadImage(store, folder, filename, Uploaded(url)).0, folder, false)
    ensures FileExists(UploadImage(store, folder, filename, Uploaded(url)).0, folder, filename, false)
  {
    var after := UploadImage(store, folder, filename, Uploaded(url)).0;
    var id := PublicId(folder, filename);
    assert folder <= id;
    AnyUnderIsPrefixTest(after, folder, false);
    AnyUnderIsPrefixTest(after, id, false);
  }
}

=== FILE: chapter_list.dfy ===
/** `get_chapter_list`: chapter links whose text reads "Chapter N" or
    "Chapter N.M", their numbers read exactly, sorted ascending by number
    with a stable sort. The links are what the page's markup yields. */
module ChapterList {
  import opened Effects
  import opened Text

  /** One chapter link as the markup gives it: its text and, when present,
      its `href` attribute. */
  datatype ChapterLink = ChapterLink(text: string, href: Option<string>)

  /** A chapter to scrape: its number and the URL of its page. */
  datatype Chapter = Chapter(number: real, url: string)

  const CHAPTER_MARKER := "Chapter "

  /** `text.replace("\n", " ")` */
  function NewlinesToSpaces(s: string): (r: string)
    ensures |r| == |s|
    ensures forall i :: 0 <= i < |s| ==> r[i] == (if s[i] == '\n' then ' ' else s[i])
  {
    seq(|s|, i requires 0 <= i < |s| => if s[i] == '\n' then ' ' else s[i])
  }

  /** Group 1 of `Chapter (\d+(\.\d+)?)`, split at the dot: the whole part
      and the (possibly empty) fraction digits. */
  datatype NumberText = NumberText(whole: string, fraction: string)

  predicate WellFormed(n: NumberText)
  {
    n.whole != [] && AllDigits(n.whole) && AllDigits(n.fraction)
  }

  /** The leftmost match of `Chapter (\d+(\.\d+)?)` in `t`: the longest digit
      run after the leftmost "Chapter " that a digit follows, and the fraction
      when a '.' and a digit follow that run (both repetitions are greedy, so
      no shorter split is tried first). */
  function FindNumberText(t: string): (r: Option<NumberText>)
    ensures r.Some? ==> WellFormed(r.value)
    ensures r.None? <==> forall i :: !MarkerAt(t, CHAPTER_MARKER, i)
  {
    match FindMarker(t, CHAPTER_MARKER, 0)
    case None => None
    case Some(i) =>
      var after := t[i + 8..];
      var whole := LeadingDigits(after);
      var rest := after[|whole|..];
      var fraction := if |rest| >= 2 && rest[0] == '.' && IsDigit(rest[1]) then LeadingDigits(rest[1..]) else [];
      Some(NumberText(whole, fraction))
  }

  /** `float(...)` of the matched text, read as an exact decimal. The
      fraction never reaches the next whole number: "N.M" lies in [N, N+1),
      and "N" is N exactly. */
  function NumberValue(n: NumberText): (x: real)
    requires WellFormed(n)
    ensures DecimalValue(n.whole) as real <= x < DecimalValue(n.whole) as real + 1.0
    ensures n.fraction == [] ==> x == DecimalValue(n.whole) as real
  {
    DecimalValueBelowPow10(n.fraction);
    QuotientBelowOne(DecimalValue(n.fraction) as real, Pow10(|n.fraction|) as real);
    DecimalValue(n.whole) as real + DecimalValue(n.fraction) as real / Pow10(|n.fraction|) as real
  }

  /** The chapter number a link text carries: none exactly when the text,
      with newlines read as spaces, has no "Chapter " followed by a digit. */
  function LinkNumber(text: string): (r: Option<real>)
    ensures r.None? <==> forall i :: !MarkerAt(NewlinesToSpaces(text), CHAPTER_MARKER, i)
    ensures r.Some? ==> 0.0 <= r.value
  {
    match FindNumberText(NewlinesToSpaces(text))
    case None => None
    case Some(n) => Some(NumberValue(n))
  }

  lemma QuotientBelowOne(f: real, p: real)
    requires 0.0 <= f < p
    ensures 0.0 <= f / p < 1.0
  {
    assert (f / p) * p == f;
  }

  /** Trailing zeros in the fraction do not change the number: "N.M0"
      reads as "N.M" does. */
  lemma TrailingZeroReadsAlike(whole: string, fraction: string)
    requires whole != [] && AllDigits(whole) && AllDigits(fraction)
    ensures WellFormed(NumberText(whole, fraction + "0"))
    ensures NumberValue(NumberText(whole, fraction + "0")) == NumberValue(NumberText(whole, fraction))
  {
    AppendZeroDigit(fraction);
    ScaledQuotient(DecimalValue(fraction) as real, Pow10(|fraction|) as real);
  }

  /** A trailing 0 multiplies a digit string's value by ten. */
  lemma AppendZeroDigit(f: string)
    requires AllDigits(f)
    ensures AllDigits(f + "0")
    ensures DecimalValue(f + "0") == 10 * DecimalValue(f)
    ensures Pow10(|f + "0"|) == 10 * Pow10(|f|)
  {
    var g := f + "0";
    assert g[..|g| - 1] == f;
  }

  lemma ScaledQuotient(a: real, b: real)
    requires b > 0.0
    ensures (10.0 * a) / (10.0 * b) == a / b
  {
    var q := a / b;
    assert q * b == a;
    assert q * (10.0 * b) == 10.0 * a;
  }

  /** No "Chapter " followed by a digit occurs inside the first |p|
      characters of `t`. */
  predicate NoMarkerBefore(t: string, p: string)
  {
    forall i :: 0 <= i < |p| ==> !MarkerAt(t, CHAPTER_MARKER, i)
  }

  /** The search lands on the marker at |p| and reads the digit run `whole`
      after it, leaving `rest`. */
  lemma WholeAfterMarker(p: string, whole: string, rest: string)
    requires whole != [] && AllDigits(whole) && (rest == [] || !IsDigit(rest[0]))
    requires NoMarkerBefore(p + CHAPTER_MARKER + whole + rest, p)
    ensures var t := p + CHAPTER_MARKER + whole + rest;
      && FindMarker(t, CHAPTER_MARKER, 0) == Some(|p|)
      && LeadingDigits(t[|p| + 8..]) == whole
      && t[|p| + 8..][|whole|..] == rest
  {
    var t := p + CHAPTER_MARKER + whole + rest;
    assert t == p + CHAPTER_MARKER + (whole + rest);
    MarkerBeforeRun(p, CHAPTER_MARKER, whole + rest);
    LeftmostMarker(t, CHAPTER_MARKER, |p|);
    LeadingDigitsOfRun(whole, rest);
  }

  /** The fraction group after a '.': the digit run up to the first
      non-digit. */
  lemma FractionAfterDot(fraction: string, t: string)
    requires fraction != [] && AllDigits(fraction) && (t == [] || !IsDigit(t[0]))
    ensures var rest := "." + fraction + t;
      |rest| >= 2 && rest[0] == '.' && IsDigit(rest[1]) && LeadingDigits(rest[1..]) == fraction
  {
    var rest := "." + fraction + t;
    assert rest[1..] == fraction + t;
    assert rest[1] == fraction[0];
    LeadingDigitsOfRun(fraction, t);
  }

  /** `re.search(r'Chapter (\d+(\.\d+)?)', text)` on a text
      `p + "Chapter " + N + "." + M + t`, with digit runs N and M, t empty or
      starting with a non-digit, and no earlier "Chapter " that a digit
      follows, yields whole part N and fraction M. */
  lemma {:induction false} ParsesWholeAndFraction(p: string, whole: string, fraction: string, t: string)
    requires whole != [] && AllDigits(whole) && fraction != [] && AllDigits(fraction)
    requires t == [] || !IsDigit(t[0])
    requires NoMarkerBefore(p + CHAPTER_MARKER + whole + "." + fraction + t, p)
    ensures FindNumberText(p + CHAPTER_MARKER + whole + "." + fraction + t) == Some(NumberText(whole, fraction))
  {
    var rest := "." + fraction + t;
    RegroupTail(p + CHAPTER_MARKER + whole, ".", fraction, t);
    WholeAfterMarker(p, whole, rest);
    FractionAfterDot(fraction, t);
  }

  /** On a text `p + "Chapter " + N + t`, where t starts with neither a
      digit nor a '.' followed by a digit, and with no earlier "Chapter "
      that a digit follows, the match is N with no fraction. */
  lemma {:induction false} ParsesWhole(p: string, whole: string, t: string)
    requires whole != [] && AllDigits(whole)
    requires t == [] || !IsDigit(t[0])
    requires !(|t| >= 2 && t[0] == '.' && IsDigit(t[1]))
    requires NoMarkerBefore(p + CHAPTER_MARKER + whole + t, p)
    ensures FindNumberText(p + CHAPTER_MARKER + whole + t) == Some(NumberText(whole, ""))
  {
    WholeAfterMarker(p, whole, t);
  }

  lemma ParsesTwelveAndAHalf()
    ensures LinkNumber("Chapter 12.5") == Some(12.5)
  {
    var t := "Chapter 12.5";
    assert NewlinesToSpaces(t) == t;
    assert t == CHAPTER_MARKER + "12" + "." + "5";
    EmptyEnds4(CHAPTER_MARKER, "12", ".", "5");
    ParsesWholeAndFraction("", "12", "5", "");
    TwelveAndFive();
  }

  lemma TwelveAndFive()
    ensures WellFormed(NumberText("12", "5")) && NumberValue(NumberText("12", "5")) == 12.5
  {
    assert DecimalValue("12") == 12 by {
      assert "12"[..1] == "1";
      assert "1"[..0] == "";
    }
    assert DecimalValue("5") == 5 by {
      assert "5"[..0] == "";
    }
  }

  /** The value `float()` reads is exact: "N.M" is the integer the digits
      N M denote together, divided by 10^|M|. */
  lemma NumberValueExact(whole: string, fraction: string)
    requires WellFormed(NumberText(whole, fraction))
    ensures AllDigits(whole + fraction)
    ensures NumberValue(NumberText(whole, fraction)) == DecimalValue(whole + fraction) as real / Pow10(|fraction|) as real
  {
    DecimalValueAppend(whole, fraction);
    ExactFromParts(DecimalValue(whole), DecimalValue(fraction), Pow10(|fraction|), DecimalValue(whole + fraction));
  }

  /** w + f/p is (w·p + f)/p. */
  lemma ExactFromParts(w: int, f: int, p: int, v: int)
    requires p > 0 && v == w * p + f
    ensures w as real + f as real / p as real == v as real / p as real
  {
    ScaledBack(w as real, f as real, p as real);
    RealOfSum(w, p, f);
  }

  lemma RealOfSum(w: int, p: int, f: int)
    ensures (w * p + f) as real == w as real * p as real + f as real
  {
  }

  lemma ScaledBack(w: real, f: real, p: real)
    requires p > 0.0
    ensures (w + f / p) * p == w * p + f
  {
    assert (f / p) * p == f;
  }

  lemma ParsesOneAndAQuarter()
    ensures LinkNumber("Chapter 1.25") == Some(1.25)
  {
    var t := "Chapter 1.25";
    assert NewlinesToSpaces(t) == t;
    assert t == CHAPTER_MARKER + "1" + "." + "25";
    EmptyEnds4(CHAPTER_MARKER, "1", ".", "25");
    ParsesWholeAndFraction("", "1", "25", "");
    OneAndTwentyFive();
  }

  lemma OneAndTwentyFive()
    ensures WellFormed(NumberText("1", "25")) && NumberValue(NumberText("1", "25")) == 1.25
  {
    assert DecimalValue("1") == 1 by {
      assert "1"[..0] == "";
    }
    assert DecimalValue("25") == 25 by {
      assert "25"[..1] == "2";
      assert "2"[..0] == "";
    }
    assert Pow10(|"25"|) == 100;
  }

  lemma ParsesAcrossNewline()
    ensures LinkNumber("Chapter\n7") == Some(7.0)
  {
    var u := NewlinesToSpaces("Chapter\n7");
    assert u == CHAPTER_MARKER + "7";
    EmptyEnds(CHAPTER_MARKER, "7");
    ParsesWhole("", "7", "");
    assert DecimalValue("7") == 7 by {
      assert "7"[..0] == "";
    }
  }

  lemma NoNumberWithoutMarker()
    ensures LinkNumber("Ch. 3") == None
  {
    var v := NewlinesToSpaces("Ch. 3");
    assert v == "Ch. 3";
    assert forall i :: !MarkerAt(v, CHAPTER_MARKER, i);
  }

  /** The matched links in page order, or None when a matched link has no
      `href` (the KeyError that makes get_chapter_list return []). */
  function Matched(links: seq<ChapterLink>): (r: Option<seq<Chapter>>)
    ensures r.Some? <==> HrefsPresent(links)
    ensures r.Some? ==> |r.value| <= |links|
    ensures r.Some? ==> |r.value| == MatchingLinks(links)
  {
    if |links| == 0 then Some([])
    else
      var rest := Matched(links[1..]);
      HrefsPresentStep(links);
      match LinkNumber(links[0].text)
      case None => rest
      case Some(n) =>
        if links[0].href.None? || rest.None? then None
        else Some([Chapter(n, links[0].href.value)] + rest.value)
  }

  /** Every link whose text matches has an `href`. */
  predicate HrefsPresent(links: seq<ChapterLink>)
  {
    forall i :: 0 <= i < |links| && LinkNumber(links[i].text).Some? ==> links[i].href.Some?
  }

  lemma HrefsPresentStep(links: seq<ChapterLink>)
    requires |links| > 0
    ensures HrefsPresent(links)
        <==> (LinkNumber(links[0].text).Some? ==> links[0].href.Some?) && HrefsPresent(links[1..])
  {
    assert forall i :: 1 <= i < |links| ==> links[i] == links[1..][i - 1];
  }

  /** How many of the links carry a chapter number in their text. */
  function MatchingLinks(links: seq<ChapterLink>): (n: nat)
    ensures n <= |links|
  {
    if |links| == 0 then 0
    else (if LinkNumber(links[0].text).Some? then 1 else 0) + MatchingLinks(links[1..])
  }

  /** Completeness, in page order: the link at index i whose text matches
      gives the chapter at the index that counts the matching links before
      it, with its number and its href. */
  lemma {:induction false} MatchedCoversLinks(links: seq<ChapterLink>, i: nat)
    requires Matched(links).Some? && i < |links| && LinkNumber(links[i].text).Some?
    ensures links[i].href.Some?
    ensures MatchingLinks(links[..i]) < |Matched(links).value|
    ensures Matched(links).value[MatchingLinks(links[..i])] == Chapter(LinkNumber(links[i].text).value, links[i].href.value)
    decreases |links|, 1
  {
    if i == 0 {
      MatchedStep(links);
      assert ChapterOf(links[0])[0] == Chapter(LinkNumber(links[i].text).value, links[i].href.value);
    } else {
      CoversLaterLink(links, i);
    }
  }

  /** The inductive step of MatchedCoversLinks: a later link is covered
      through the tail. */
  lemma {:induction false} CoversLaterLink(links: seq<ChapterLink>, i: nat)
    requires Matched(links).Some? && 0 < i < |links| && LinkNumber(links[i].text).Some?
    ensures links[i].href.Some?
    ensures MatchingLinks(links[..i]) < |Matched(links).value|
    ensures Matched(links).value[MatchingLinks(links[..i])] == Chapter(LinkNumber(links[i].text).value, links[i].href.value)
    decreases |links|, 0
  {
    var tail := links[1..];
    var l := links[i];
    assert tail[i - 1] == l;
    assert Matched(tail).Some? by { MatchedStep(links); }
    MatchedCoversLinks(tail, i - 1);
    CoversStep(links, i, Chapter(LinkNumber(l.text).value, l.href.value));
  }

  /** The matching link at index i > 0 lands one place further than it does
      in the tail when the first link matches, and at the same place otherwise. */
  lemma CoversStep(links: seq<ChapterLink>, i: nat, c: Chapter)
    requires Matched(links).Some? && 0 < i < |links|
    requires Matched(links[1..]).Some?
    requires MatchingLinks(links[1..][..i - 1]) < |Matched(links[1..]).value|
    requires Matched(links[1..]).value[MatchingLinks(links[1..][..i - 1])] == c
    ensures MatchingLinks(links[..i]) < |Matched(links).value|
    ensures Matched(links).value[MatchingLinks(links[..i])] == c
  {
    MatchedStep(links);
    MatchingPrefixStep(links, i);
    ShiftIndex(Matched(links).value, ChapterOf(links[0]), Matched(links[1..]).value,
               MatchingLinks(links[..i]), MatchingLinks(links[1..][..i - 1]), c);
  }

  lemma ShiftIndex(whole: seq<Chapter>, head: seq<Chapter>, rest: seq<Chapter>, n: nat, m: nat, c: Chapter)
    requires whole == head + rest && n == |head| + m && m < |rest| && rest[m] == c
    ensures n < |whole| && whole[n] == c
  {
  }

  /** The chapter one link contributes: one when its text matches, none
      otherwise. */
  function ChapterOf(link: ChapterLink): seq<Chapter>
  {
    if LinkNumber(link.text).Some? && link.href.Some? then [Chapter(LinkNumber(link.text).value, link.href.value)] else []
  }

  /** One link of the matched list: its chapter, if its text matches, then
      the rest's. */
  lemma MatchedStep(links: seq<ChapterLink>)
    requires |links| > 0 && Matched(links).Some?
    ensures Matched(links[1..]).Some?
    ensures LinkNumber(links[0].text).Some? ==> links[0].href.Some?
    ensures |ChapterOf(links[0])| == if LinkNumber(links[0].text).Some? then 1 else 0
    ensures Matched(links).value == ChapterOf(links[0]) + Matched(links[1..]).value
    ensures MatchingLinks(links[..0]) == 0
  {
    assert links[..0] == [];
  }

  lemma MatchingPrefixStep(links: seq<ChapterLink>, i: nat)
    requires 0 < i <= |links|
    ensures MatchingLinks(links[..i]) == (if LinkNumber(links[0].text).Some? then 1 else 0) + MatchingLinks(links[1..][..i - 1])
  {
    assert links[..i][1..] == links[1..][..i - 1];
    assert links[..i][0] == links[0];
  }

  /** Every matched chapter comes from a link whose text carries its number
      and whose href is its URL. */
  lemma {:induction false} MatchedFromLinks(links: seq<ChapterLink>, c: Chapter)
    requires Matched(links).Some? && c in Matched(links).value
    ensures exists i :: 0 <= i < |links| && LinkNumber(links[i].text) == Some(c.number) && links[i].href == Some(c.url)
  {
    var tail := links[1..];
    var head := links[0];
    if LinkNumber(head.text).Some? && c == Chapter(LinkNumber(head.text).value, head.href.value) {
      assert LinkNumber(links[0].text) == Some(c.number) && links[0].href == Some(c.url);
    } else {
      assert Matched(tail).Some? && c in Matched(tail).value;
      MatchedFromLinks(tail, c);
      var i :| 0 <= i < |tail| && LinkNumber(tail[i].text) == Some(c.number) && tail[i].href == Some(c.url);
      assert links[i + 1] == tail[i];
    }
  }

  predicate SortedByNumber(s: seq<Chapter>)
  {
    forall i, j :: 0 <= i < j < |s| ==> s[i].number <= s[j].number
  }

  /** Places `c` before the first chapter whose number is not smaller, so
      that it precedes the chapters with an equal number. */
  function InsertByNumber(c: Chapter, s: seq<Chapter>): (r: seq<Chapter>)
    ensures multiset(r) == multiset(s) + multiset{c}
    ensures SortedByNumber(s) ==> SortedByNumber(r)
  {
    if |s| == 0 || c.number <= s[0].number then [c] + s
    else
      var rest := InsertByNumber(c, s[1..]);
      assert s == [s[0]] + s[1..];
      if SortedByNumber(s) then
        HeadBelowInserted(c, s, rest);
        [s[0]] + rest
      else [s[0]] + rest
  }

  lemma HeadBelowInserted(c: Chapter, s: seq<Chapter>, rest: seq<Chapter>)
    requires |s| > 0 && s[0].number < c.number && SortedByNumber(s)
    requires multiset(rest) == multiset(s[1..]) + multiset{c}
    requires SortedByNumber(rest)
    ensures SortedByNumber([s[0]] + rest)
  {
    forall k | 0 <= k < |rest|
      ensures s[0].number <= rest[k].number
    {
      assert rest[k] in multiset(rest);
      if rest[k] != c {
        assert rest[k] in multiset(s[1..]);
        var j :| 0 <= j < |s[1..]| && s[1..][j] == rest[k];
        assert s[j + 1] == rest[k];
      }
    }
    var r := [s[0]] + rest;
    forall i, j | 0 <= i < j < |r|
      ensures r[i].number <= r[j].number
    {
      if i > 0 {
        assert r[i] == rest[i - 1] && r[j] == rest[j - 1];
      } else {
        assert r[j] == rest[j - 1];
      }
    }
  }

  /** `sorted(chapters, key=number)`, stable. */
  function SortByNumber(s: seq<Chapter>): (r: seq<Chapter>)
    ensures SortedByNumber(r)
    ensures multiset(r) == multiset(s)
  {
    if |s| == 0 then []
    else
      assert s == [s[0]] + s[1..];
      InsertByNumber(s[0], SortByNumber(s[1..]))
  }

  /** The chapters numbered `x`, in the order they appear. */
  function WithNumber(s: seq<Chapter>, x: real): seq<Chapter>
  {
    if |s| == 0 then [] else (if s[0].number == x then [s[0]] else []) + WithNumber(s[1..], x)
  }

  lemma {:induction false} InsertKeepsEqualOrder(c: Chapter, s: seq<Chapter>, x: real)
    ensures WithNumber(InsertByNumber(c, s), x) == if c.number == x then [c] + WithNumber(s, x) else WithNumber(s, x)
  {
    if |s| == 0 || c.number <= s[0].number {
      assert ([c] + s)[1..] == s;
    } else {
      var rest := InsertByNumber(c, s[1..]);
      assert ([s[0]] + rest)[1..] == rest;
      InsertKeepsEqualOrder(c, s[1..], x);
    }
  }

  /** Stability: among chapters with the same number, the sort keeps page order. */
  lemma {:induction false} SortIsStable(s: seq<Chapter>, x: real)
    ensures WithNumber(SortByNumber(s), x) == WithNumber(s, x)
  {
    if |s| > 0 {
      SortIsStable(s[1..], x);
      InsertKeepsEqualOrder(s[0], SortByNumber(s[1..]), x);
    }
  }

  /** `get_chapter_list(soup)`: the matched links sorted by number, or []
      when reading one of them raised. */
  function GetChapterList(links: seq<ChapterLink>): (r: seq<Chapter>)
    ensures SortedByNumber(r)
    ensures Matched(links).None? ==> r == []
    ensures Matched(links).Some? ==> multiset(r) == multiset(Matched(links).value)
  {
    match Matched(links)
    case None => []
    case Some(cs) => SortByNumber(cs)
  }

  /** Every listed chapter comes from a link whose text carries its number
      and whose href is its URL. */
  lemma GetChapterListFromLinks(links: seq<ChapterLink>, c: Chapter)
    requires c in GetChapterList(links)
    ensures exists i :: 0 <= i < |links| && LinkNumber(links[i].text) == Some(c.number) && links[i].href == Some(c.url)
  {
    var cs := Matched(links).value;
    assert c in multiset(GetChapterList(links));
    assert c in cs;
    MatchedFromLinks(links, c);
  }

  /** Chapters with equal numbers leave get_chapter_list in page order. */
  lemma GetChapterListIsStable(links: seq<ChapterLink>, x: real)
    requires Matched(links).Some?
    ensures WithNumber(GetChapterList(links), x) == WithNumber(Matched(links).value, x)
  {
    SortIsStable(Matched(links).value, x);
  }
}

=== FILE: comic.dfy ===
/** The `comics` table: one row per comic, identified by its slug. The
    auto-incremented `id` is not modelled; rows are keyed by slug instead. */
module ComicModel {
  import opened Effects

  /** The `comic_type` enum column. */
  datatype ComicType = Manga | Manhwa | Manhua

  /** The `comic_status` enum column. */
  datatype ComicStatus = Ongoing | Completed

  function TypeName(t: ComicType): string
  {
    match t
    case Manga => "manga"
    case Manhwa => "manhwa"
    case Manhua => "manhua"
  }

  function StatusName(s: ComicStatus): string
  {
    match s
    case Ongoing => "ongoing"
    case Completed => "completed"
  }

  /** The enum value a stored string denotes, if it is in the domain. */
  function ParseType(s: string): (r: Option<ComicType>)
    ensures r.Some? ==> TypeName(r.value) == s
    ensures r.None? ==> s != "manga" && s != "manhwa" && s != "manhua"
  {
    if s == "manga" then Some(Manga)
    else if s == "manhwa" then Some(Manhwa)
    else if s == "manhua" then Some(Manhua)
    else None
  }

  function ParseStatus(s: string): (r: Option<ComicStatus>)
    ensures r.Some? ==> StatusName(r.value) == s
    ensures r.None? ==> s != "ongoing" && s != "completed"
  {
    if s == "ongoing" then Some(Ongoing)
    else if s == "completed" then Some(Completed)
    else None
  }

  /** Each enum value is stored under its own name and read back as itself. */
  lemma EnumNamesRoundTrip(t: ComicType, s: ComicStatus)
    ensures ParseType(TypeName(t)) == Some(t)
    ensures ParseStatus(StatusName(s)) == Some(s)
  {
  }

  /** A row. Every column is NOT NULL except `rating`, the one Option. */
  datatype Comic = Comic(
    title: string,
    author: string,
    kind: ComicType,
    status: ComicStatus,
    release: string,
    updatedOn: int,
    genres: seq<string>,
    synopsis: string,
    rating: Option<string>,
    coverImageUrl: string,
    slug: string)

  /** The table, by slug. */
  type ComicDb = map<string, Comic>

  /** The UNIQUE constraint on `slug`: each row sits under its own slug, so
      no two rows share one. */
  predicate SlugKeyed(db: ComicDb)
  {
    forall k :: k in db ==> db[k].slug == k
  }

  /** Under the invariant, "some row has this slug" is "the slug is a key". */
  lemma SlugLookup(db: ComicDb, slug: string)
    requires SlugKeyed(db)
    ensures (exists k :: k in db && db[k].slug == slug) <==> slug in db
  {
  }
}

=== FILE: downloader.dfy ===
/** `download_image` and `handle_cover_image`: one image fetched with its own
    retry loop (which treats HTTP 429 specially), filed under a key derived
    from the comic slug and the chapter, and uploaded. The answer to the GET
    of each loop iteration is `answer(attempt)`; the upload's outcome is
    `upload`. */
module Downloader {
  import opened Effects
  import opened Text
  import opened AssetStore
  import Fetcher

  /** The default of download_image's `retries` parameter, which every caller uses. */
  const DOWNLOAD_RETRIES := 3
  /** The wait used when a 429 carries no Retry-After header. */
  const DEFAULT_RETRY_AFTER := 60

  /** The Retry-After header of a 429 response, as `int(...)` sees it. */
  datatype RetryAfter = NoHeader | Seconds(n: int) | NotAnInteger

  /** How one image GET ends. */
  datatype ImageOutcome =
    | ImageOk                                  // a 2xx response whose body was read
    | TooManyRequests(retryAfter: RetryAfter)  // status 429
    | ClientFailure                            // an aiohttp.ClientError (other error statuses included)
    | OtherFailure                             // any other exception, e.g. a timeout

  function RetryAfterSeconds(h: RetryAfter): int
    requires !h.NotAnInteger?
  {
    if h.NoHeader? then DEFAULT_RETRY_AFTER else h.n
  }

  /** The folder and file name an image is uploaded under. */
  datatype Target = Target(folder: string, filename: string)

  /** `url.split('/')[-1].split('.')[0]`: the URL's last path segment up to its first dot. */
  function Stem(url: string): (f: string)
    ensures '/' !in f && '.' !in f
    ensures f <= LastSegment(url)
    ensures |f| == |LastSegment(url)| || LastSegment(url)[|f|] == '.'
  {
    var seg := LastSegment(url);
    var f := BeforeDot(seg);
    PrefixLacks(f, seg, '/');
    f
  }

  /** The key derivation of download_image. A cover wins over a chapter; a
      chapter given as None or "" (both false in Python) leaves no target,
      which raises ValueError. */
  function AssetTarget(url: string, slug: string, chapter: string, isCover: bool): (t: Option<Target>)
    ensures isCover ==> t == Some(Target(slug, "cover"))
    ensures !isCover && chapter != "" ==> t.Some? && t.value.folder == slug + "/chapter-" + chapter
    ensures !isCover && chapter != "" ==> t.Some? && t.value.filename == Stem(url)
    ensures !isCover && chapter == "" ==> t.None?
  {
    if isCover then Some(Target(slug, "cover"))
    else if chapter != "" then Some(Target(slug + "/chapter-" + chapter, Stem(url)))
    else None
  }

  /** The public id an image receives once uploaded. */
  function TargetId(t: Target): string
  {
    PublicId(t.folder, t.filename)
  }

  /** What one download_image call did: its result (a URL, "" for a failed
      upload, None when the loop ran out, or an exception), its effects and the
      asset store afterwards. */
  datatype Transfer = Transfer(result: Outcome<Option<string>>, log: seq<Event>, store: Store)

  /** The call got as far as upload_image. */
  predicate Delivered(t: Transfer)
  {
    t.result.Returned? && t.result.value.Some?
  }

  lemma RetryStepCounts(url: string, d: int, rest: seq<Event>)
    ensures Requests([Get(url), Sleep(d)] + rest) == 1 + Requests(rest)
    ensures Uploads([Get(url), Sleep(d)] + rest) == Uploads(rest)
    ensures Sleeps([Get(url), Sleep(d)] + rest) == [d] + Sleeps(rest)
  {
    var head := [Get(url), Sleep(d)];
    assert head[1..] == [Sleep(d)];
    assert head[1..][1..] == [];
    CountAppend(head, rest, IsGet);
    CountAppend(head, rest, IsUpload);
    SleepsAppend(head, rest);
  }

  lemma LastStepCounts(url: string, id: string)
    ensures Requests([Get(url)]) == 1 && Uploads([Get(url)]) == 0
    ensures Requests([Get(url), Upload(id)]) == 1 && Uploads([Get(url), Upload(id)]) == 1
  {
    assert [Get(url), Upload(id)][1..] == [Upload(id)];
    assert [Get(url)][1..] == [];
    assert [Upload(id)][1..] == [];
    assert Count([Upload(id)], IsUpload) == 1;
    assert Count([Get(url)], IsUpload) == 0;
    CountAppend([Get(url)], [Upload(id)], IsUpload);
    CountAppend([Get(url)], [Upload(id)], IsGet);
    assert [Get(url)] + [Upload(id)] == [Get(url), Upload(id)];
  }

  /** An iteration whose GET ends the call with an exception. */
  function Abort(url: string, f: Fault, store: Store): (r: Transfer)
    ensures r.result == Raised(f) && r.store == store && !Delivered(r)
    ensures Requests(r.log) == 1 && Uploads(r.log) == 0 && Throttle !in r.log
  {
    LastStepCounts(url, "");
    Transfer(Raised(f), [Get(url)], store)
  }

  /** The iteration whose GET succeeded: derive the key and upload, or raise
      ValueError when there is no key. A refused upload returns "". */
  function Finish(url: string, slug: string, chapter: string, isCover: bool, upload: UploadOutcome, store: Store): (r: Transfer)
    ensures Requests(r.log) == 1 && Throttle !in r.log
    ensures Uploads(r.log) == if Delivered(r) then 1 else 0
    ensures r.result.Raised? ==> r.result.fault == ValueError
    ensures !Delivered(r) ==> r.store == store
    ensures Delivered(r) <==> AssetTarget(url, slug, chapter, isCover).Some?
    ensures Delivered(r) ==>
      var t := AssetTarget(url, slug, chapter, isCover).value;
      r.store == UploadImage(store, t.folder, t.filename, upload).0
      && r.result.value.value == (if upload.Uploaded? then upload.secureUrl else "")
  {
    match AssetTarget(url, slug, chapter, isCover)
    case None => Abort(url, ValueError, store)
    case Some(t) =>
      var (after, res) := UploadImage(store, t.folder, t.filename, upload);
      LastStepCounts(url, TargetId(t));
      Transfer(Returned(Some(if res.Some? then res.value else "")), [Get(url), Upload(TargetId(t))], after)
  }

  /** An iteration that sleeps `d` seconds and leaves the rest to the later iterations. */
  function Retry(url: string, d: int, rest: Transfer): (r: Transfer)
    ensures r.result == rest.result && r.store == rest.store
    ensures Requests(r.log) == 1 + Requests(rest.log) && Uploads(r.log) == Uploads(rest.log)
    ensures Sleeps(r.log) == [d] + Sleeps(rest.log)
    ensures Throttle !in rest.log ==> Throttle !in r.log
  {
    RetryStepCounts(url, d, rest.log);
    Transfer(rest.result, [Get(url), Sleep(d)] + rest.log, rest.store)
  }

  /** Iterations `attempt ..` of the retry loop of download_image. A 429
      sleeps Retry-After seconds and continues, spending its iteration; a
      client error sleeps 2^attempt seconds, or is re-raised on the last
      iteration; anything else leaves the loop at once. */
  function DownloadFrom(url: string, slug: string, chapter: string, isCover: bool, retries: int,
                        answer: nat -> ImageOutcome, upload: UploadOutcome, store: Store, attempt: nat): (r: Transfer)
    ensures Requests(r.log) <= if attempt < retries then retries - attempt else 0
    ensures Uploads(r.log) == if Delivered(r) then 1 else 0
    ensures !Delivered(r) ==> r.store == store
    ensures Delivered(r) ==> AssetTarget(url, slug, chapter, isCover).Some?
    ensures Delivered(r) ==>
      var t := AssetTarget(url, slug, chapter, isCover).value;
      r.store == UploadImage(store, t.folder, t.filename, upload).0
      && r.result.value.value == (if upload.Uploaded? then upload.secureUrl else "")
    ensures r.result == Raised(ClientError) ==> attempt < retries && answer(retries - 1) == ClientFailure
    ensures Throttle !in r.log
    decreases retries - attempt
  {
    if attempt >= retries then Transfer(Returned(None), [], store)
    else match answer(attempt)
      case ImageOk => Finish(url, slug, chapter, isCover, upload, store)
      case TooManyRequests(h) =>
        if h.NotAnInteger? then Abort(url, ValueError, store)
        else Retry(url, RetryAfterSeconds(h), DownloadFrom(url, slug, chapter, isCover, retries, answer, upload, store, attempt + 1))
      case ClientFailure =>
        if attempt == retries - 1 then Abort(url, ClientError, store)
        else Retry(url, Fetcher.Pow2(attempt), DownloadFrom(url, slug, chapter, isCover, retries, answer, upload, store, attempt + 1))
      case OtherFailure => Abort(url, OtherError, store)
  }

  /** `download_image(url, slug, chapter, is_cover, retries)` under
      `@rate_limited()`: one random pause before the whole call (not before
      each attempt), then the retry loop; None when the loop runs out. */
  function DownloadImage(url: string, slug: string, chapter: string, isCover: bool, retries: int,
                         answer: nat -> ImageOutcome, upload: UploadOutcome, store: Store): (r: Transfer)
    ensures |r.log| > 0 && r.log[0] == Throttle
    ensures forall i :: 0 < i < |r.log| ==> r.log[i] != Throttle
    ensures Requests(r.log) <= if retries > 0 then retries else 0
    ensures Uploads(r.log) <= 1
    ensures !Delivered(r) ==> r.store == store
    ensures Delivered(r) ==>
      && AssetTarget(url, slug, chapter, isCover).Some?
      && r.store == UploadImage(store, AssetTarget(url, slug, chapter, isCover).value.folder,
                                AssetTarget(url, slug, chapter, isCover).value.filename, upload).0
      && r.result.value.value == (if upload.Uploaded? then upload.secureUrl else "")
    ensures !isCover && chapter == "" ==> !Delivered(r) && r.store == store
    ensures r.result == Raised(ClientError) ==> retries > 0 && answer(retries - 1) == ClientFailure
  {
    var t := DownloadFrom(url, slug, chapter, isCover, retries, answer, upload, store, 0);
    CountAppend([Throttle], t.log, IsGet);
    CountAppend([Throttle], t.log, IsUpload);
    var log := [Throttle] + t.log;
    assert forall i :: 0 < i < |log| ==> log[i] == t.log[i - 1];
    Transfer(t.result, log, t.store)
  }

  /** Every iteration answered 429 with a usable Retry-After: each iteration
      sleeps the server's delay and is spent, the loop runs out, nothing is
      uploaded and the call returns None. */
  lemma {:induction false} ThrottledThroughout(url: string, slug: string, chapter: string, isCover: bool, retries: int,
                                               answer: nat -> ImageOutcome, upload: UploadOutcome, store: Store, attempt: nat)
    requires attempt <= retries
    requires forall k :: attempt <= k < retries ==> answer(k).TooManyRequests? && !answer(k).retryAfter.NotAnInteger?
    ensures DownloadFrom(url, slug, chapter, isCover, retries, answer, upload, store, attempt).result == Returned(None)
    ensures DownloadFrom(url, slug, chapter, isCover, retries, answer, upload, store, attempt).store == store
    ensures Requests(DownloadFrom(url, slug, chapter, isCover, retries, answer, upload, store, attempt).log) == retries - attempt
    ensures Sleeps(DownloadFrom(url, slug, chapter, isCover, retries, answer, upload, store, attempt).log)
         == ThrottleDelays(answer, attempt, retries)
    decreases retries - attempt
  {
    if attempt < retries {
      var h := answer(attempt).retryAfter;
      var rest := DownloadFrom(url, slug, chapter, isCover, retries, answer, upload, store, attempt + 1);
      ThrottledThroughout(url, slug, chapter, isCover, retries, answer, upload, store, attempt + 1);
      RetryStepCounts(url, RetryAfterSeconds(h), rest.log);
      ThrottleDelaysStep(answer, attempt, retries);
    }
  }

  /** The Retry-After delays the answers of iterations `from .. to-1` ask for, in order. */
  function ThrottleDelays(answer: nat -> ImageOutcome, from: nat, to: int): (d: seq<int>)
    requires forall k :: from <= k < to ==> answer(k).TooManyRequests? && !answer(k).retryAfter.NotAnInteger?
    ensures |d| == if from <= to then to - from else 0
  {
    if to <= from then []
    else seq(to - from, k requires 0 <= k < to - from => RetryAfterSeconds(answer(from + k).retryAfter))
  }

  lemma ThrottleDelaysStep(answer: nat -> ImageOutcome, from: nat, to: int)
    requires from < to
    requires forall k :: from <= k < to ==> answer(k).TooManyRequests? && !answer(k).retryAfter.NotAnInteger?
    ensures ThrottleDelays(answer, from, to) == [RetryAfterSeconds(answer(from).retryAfter)] + ThrottleDelays(answer, from + 1, to)
  {
    var a := ThrottleDelays(answer, from, to);
    var b := [RetryAfterSeconds(answer(from).retryAfter)] + ThrottleDelays(answer, from + 1, to);
    assert |a| == |b|;
    forall i | 1 <= i < |a| ensures a[i] == b[i] {
      assert from + 1 + (i - 1) == from + i;
    }
  }

  /** The result and the effects of the loop do not depend on what the store
      holds: upload_image does not look before it writes. */
  lemma {:induction false} DownloadIgnoresStore(url: string, slug: string, chapter: string, isCover: bool, retries: int,
                                                answer: nat -> ImageOutcome, upload: UploadOutcome, s1: Store, s2: Store, attempt: nat)
    ensures DownloadFrom(url, slug, chapter, isCover, retries, answer, upload, s1, attempt).result
         == DownloadFrom(url, slug, chapter, isCover, retries, answer, upload, s2, attempt).result
    ensures DownloadFrom(url, slug, chapter, isCover, retries, answer, upload, s1, attempt).log
         == DownloadFrom(url, slug, chapter, isCover, retries, answer, upload, s2, attempt).log
    decreases retries - attempt
  {
    if attempt < retries {
      DownloadIgnoresStore(url, slug, chapter, isCover, retries, answer, upload, s1, s2, attempt + 1);
      IgnoresStoreStep(url, slug, chapter, isCover, retries, answer, upload, s1, s2, attempt);
    }
  }

  /** One iteration of the loop adds nothing that depends on the store. */
  lemma IgnoresStoreStep(url: string, slug: string, chapter: string, isCover: bool, retries: int,
                         answer: nat -> ImageOutcome, upload: UploadOutcome, s1: Store, s2: Store, attempt: nat)
    requires attempt < retries
    requires DownloadFrom(url, slug, chapter, isCover, retries, answer, upload, s1, attempt + 1).result
          == DownloadFrom(url, slug, chapter, isCover, retries, answer, upload, s2, attempt + 1).result
    requires DownloadFrom(url, slug, chapter, isCover, retries, answer, upload, s1, attempt + 1).log
          == DownloadFrom(url, slug, chapter, isCover, retries, answer, upload, s2, attempt + 1).log
    ensures DownloadFrom(url, slug, chapter, isCover, retries, answer, upload, s1, attempt).result
         == DownloadFrom(url, slug, chapter, isCover, retries, answer, upload, s2, attempt).result
    ensures DownloadFrom(url, slug, chapter, isCover, retries, answer, upload, s1, attempt).log
         == DownloadFrom(url, slug, chapter, isCover, retries, answer, upload, s2, attempt).log
  {
    var a := answer(attempt);
    if a == ImageOk {
      GoodResponseUploads(url, slug, chapter, isCover, retries, answer, upload, s1, attempt);
      GoodResponseUploads(url, slug, chapter, isCover, retries, answer, upload, s2, attempt);
      FinishIgnoresStore(url, slug, chapter, isCover, upload, s1, s2);
    } else if a.TooManyRequests? && !a.retryAfter.NotAnInteger? {
      TooManyRequestsWaits(url, slug, chapter, isCover, retries, answer, upload, s1, attempt);
      TooManyRequestsWaits(url, slug, chapter, isCover, retries, answer, upload, s2, attempt);
    } else if a == ClientFailure && attempt < retries - 1 {
      ClientErrorBacksOff(url, slug, chapter, isCover, retries, answer, upload, s1, attempt);
      ClientErrorBacksOff(url, slug, chapter, isCover, retries, answer, upload, s2, attempt);
    }
  }

  lemma FinishIgnoresStore(url: string, slug: string, chapter: string, isCover: bool, upload: UploadOutcome, s1: Store, s2: Store)
    ensures Finish(url, slug, chapter, isCover, upload, s1).result == Finish(url, slug, chapter, isCover, upload, s2).result
    ensures Finish(url, slug, chapter, isCover, upload, s1).log == Finish(url, slug, chapter, isCover, upload, s2).log
  {
    match AssetTarget(url, slug, chapter, isCover)
    case None =>
    case Some(t) =>
      assert UploadImage(s1, t.folder, t.filename, upload).1 == UploadImage(s2, t.folder, t.filename, upload).1;
  }

  /** An iteration whose GET succeeds ends the loop with the upload step. */
  lemma GoodResponseUploads(url: string, slug: string, chapter: string, isCover: bool, retries: int,
                  answer: nat -> ImageOutcome, upload: UploadOutcome, store: Store, attempt: nat)
    requires attempt < retries && answer(attempt) == ImageOk
    ensures DownloadFrom(url, slug, chapter, isCover, retries, answer, upload, store, attempt)
         == Finish(url, slug, chapter, isCover, upload, store)
  {
  }

  /** An iteration answered by a 429 with a usable Retry-After sleeps and
      goes on. */
  lemma TooManyRequestsWaits(url: string, slug: string, chapter: string, isCover: bool, retries: int,
                          answer: nat -> ImageOutcome, upload: UploadOutcome, store: Store, attempt: nat)
    requires attempt < retries && answer(attempt).TooManyRequests? && !answer(attempt).retryAfter.NotAnInteger?
    ensures DownloadFrom(url, slug, chapter, isCover, retries, answer, upload, store, attempt)
         == Retry(url, RetryAfterSeconds(answer(attempt).retryAfter),
                  DownloadFrom(url, slug, chapter, isCover, retries, answer, upload, store, attempt + 1))
  {
  }

  /** A client error before the last iteration sleeps 2^attempt seconds and
      goes on. */
  lemma ClientErrorBacksOff(url: string, slug: string, chapter: string, isCover: bool, retries: int,
                             answer: nat -> ImageOutcome, upload: UploadOutcome, store: Store, attempt: nat)
    requires attempt < retries - 1 && answer(attempt) == ClientFailure
    ensures DownloadFrom(url, slug, chapter, isCover, retries, answer, upload, store, attempt)
         == Retry(url, Fetcher.Pow2(attempt), DownloadFrom(url, slug, chapter, isCover, retries, answer, upload, store, attempt + 1))
  {
  }

  /** A client error on the last iteration is re-raised at once. */
  lemma ClientErrorOnLastIteration(url: string, slug: string, chapter: string, isCover: bool, retries: int,
                                   answer: nat -> ImageOutcome, upload: UploadOutcome, store: Store)
    requires retries > 0 && answer(retries - 1) == ClientFailure
    ensures DownloadFrom(url, slug, chapter, isCover, retries, answer, upload, store, retries - 1)
         == Transfer(Raised(ClientError), [Get(url)], store)
  {
  }

  /** An iteration that raises anything but a client error leaves the loop
      at once with that exception: a timeout or other error, or the
      ValueError of `int()` on a Retry-After that is not an integer. */
  lemma EscapeLeavesAtOnce(url: string, slug: string, chapter: string, isCover: bool, retries: int,
                           answer: nat -> ImageOutcome, upload: UploadOutcome, store: Store, attempt: nat)
    requires attempt < retries
    requires answer(attempt) == OtherFailure || answer(attempt) == TooManyRequests(NotAnInteger)
    ensures DownloadFrom(url, slug, chapter, isCover, retries, answer, upload, store, attempt)
         == Transfer(Raised(if answer(attempt) == OtherFailure then OtherError else ValueError), [Get(url)], store)
  {
  }

  /** Iteration `j` goes on to the next one: a 429 with a usable
      Retry-After on any iteration, or a client error before the last. */
  predicate Continues(answer: nat -> ImageOutcome, retries: int, j: nat)
  {
    || (answer(j).TooManyRequests? && !answer(j).retryAfter.NotAnInteger?)
    || (answer(j) == ClientFailure && j < retries - 1)
  }

  /** How long a continuing iteration sleeps: the server's delay after a
      429, 2^j seconds after a client error. */
  function WaitOf(answer: nat -> ImageOutcome, retries: int, j: nat): int
    requires Continues(answer, retries, j)
  {
    if answer(j).TooManyRequests? then RetryAfterSeconds(answer(j).retryAfter) else Fetcher.Pow2(j)
  }

  /** The effects of continuing iterations `from .. to-1`, in closed form:
      a GET and then that iteration's sleep, for each of them. */
  function Waits(url: string, answer: nat -> ImageOutcome, retries: int, from: nat, to: nat): (log: seq<Event>)
    requires from <= to
    requires forall j :: from <= j < to ==> Continues(answer, retries, j)
    ensures |log| == 2 * (to - from)
    decreases (to as int) - (from as int)
  {
    if from == to then []
    else [Get(url), Sleep(WaitOf(answer, retries, from))] + Waits(url, answer, retries, from + 1, to)
  }

  /** A continuing iteration in front of a run of them and whatever ends the loop. */
  lemma RetryOnto(url: string, w: int, rest: Transfer, last: Transfer, tail: seq<Event>)
    requires rest == Transfer(last.result, tail + last.log, last.store)
    ensures Retry(url, w, rest) == Transfer(last.result, ([Get(url), Sleep(w)] + tail) + last.log, last.store)
  {
    assert [Get(url), Sleep(w)] + (tail + last.log) == ([Get(url), Sleep(w)] + tail) + last.log;
  }

  /** Iteration `j` of a run is a Retry onto iteration `j + 1`, sleeping
      that iteration's wait. */
  predicate Chained(url: string, answer: nat -> ImageOutcome, retries: int, runs: nat -> Transfer, j: nat)
  {
    Continues(answer, retries, j) && runs(j) == Retry(url, WaitOf(answer, retries, j), runs(j + 1))
  }

  /** A run of continuing iterations, each a Retry onto the next, in front
      of iteration `k`: their GETs and sleeps in closed form, then whatever
      iteration `k` does. */
  lemma {:induction false} ChainWaits(url: string, answer: nat -> ImageOutcome, retries: int, runs: nat -> Transfer,
                                      attempt: nat, k: nat)
    requires attempt <= k
    requires forall j :: attempt <= j < k ==> Continues(answer, retries, j)
    requires forall j :: attempt <= j < k ==> Chained(url, answer, retries, runs, j)
    ensures runs(attempt) == Transfer(runs(k).result, Waits(url, answer, retries, attempt, k) + runs(k).log, runs(k).store)
    decreases k - attempt
  {
    if attempt == k {
      NoWaits(url, answer, retries, k, runs(k).log);
    } else {
      ChainWaits(url, answer, retries, runs, attempt + 1, k);
      assert Chained(url, answer, retries, runs, attempt);
      var tail := Waits(url, answer, retries, attempt + 1, k);
      assert runs(attempt + 1) == Transfer(runs(k).result, tail + runs(k).log, runs(k).store);
      RetryOnto(url, WaitOf(answer, retries, attempt), runs(attempt + 1), runs(k), tail);
    }
  }

  lemma NoWaits(url: string, answer: nat -> ImageOutcome, retries: int, k: nat, log: seq<Event>)
    ensures Waits(url, answer, retries, k, k) + log == log
  {
    assert Waits(url, answer, retries, k, k) == [];
  }

  /** The loop's whole schedule: iterations that continue (429s with a
      usable Retry-After, client errors before the last iteration) each make
      one GET and one sleep, and whatever iteration `k` does then follows. */
  lemma DownloadFromAfterWaits(url: string, slug: string, chapter: string, isCover: bool, retries: int,
                               answer: nat -> ImageOutcome, upload: UploadOutcome, store: Store, attempt: nat, k: nat)
    requires attempt <= k <= retries
    requires forall j :: attempt <= j < k ==> Continues(answer, retries, j)
    ensures var last := DownloadFrom(url, slug, chapter, isCover, retries, answer, upload, store, k);
      DownloadFrom(url, slug, chapter, isCover, retries, answer, upload, store, attempt)
      == Transfer(last.result, Waits(url, answer, retries, attempt, k) + last.log, last.store)
  {
    var runs := (j: nat) => DownloadFrom(url, slug, chapter, isCover, retries, answer, upload, store, j);
    forall j | attempt <= j < k
      ensures Chained(url, answer, retries, runs, j)
    {
      assert Continues(answer, retries, j);
      var here := DownloadFrom(url, slug, chapter, isCover, retries, answer, upload, store, j);
      var next := DownloadFrom(url, slug, chapter, isCover, retries, answer, upload, store, j + 1);
      if answer(j).TooManyRequests? {
        TooManyRequestsWaits(url, slug, chapter, isCover, retries, answer, upload, store, j);
        assert here == Retry(url, WaitOf(answer, retries, j), next);
      } else {
        ClientErrorBacksOff(url, slug, chapter, isCover, retries, answer, upload, store, j);
        assert here == Retry(url, WaitOf(answer, retries, j), next);
      }
      assert runs(j) == here && runs(j + 1) == next;
    }
    ChainWaits(url, answer, retries, runs, attempt, k);
  }

  /** The success path of download_image: after any continuing iterations,
      the first good response is uploaded as Finish does, and the call
      returns what Finish returns. */
  lemma DownloadImageFirstSuccess(url: string, slug: string, chapter: string, isCover: bool, retries: int,
                                  answer: nat -> ImageOutcome, upload: UploadOutcome, store: Store, k: nat)
    requires k < retries && answer(k) == ImageOk
    requires forall j :: 0 <= j < k ==> Continues(answer, retries, j)
    ensures var f := Finish(url, slug, chapter, isCover, upload, store);
      DownloadImage(url, slug, chapter, isCover, retries, answer, upload, store)
      == Transfer(f.result, [Throttle] + (Waits(url, answer, retries, 0, k) + f.log), f.store)
  {
    DownloadFromAfterWaits(url, slug, chapter, isCover, retries, answer, upload, store, 0, k);
    GoodResponseUploads(url, slug, chapter, isCover, retries, answer, upload, store, k);
  }

  /** A client error on the last iteration, after continuing iterations
      only, is re-raised after that iteration's single GET. */
  lemma DownloadImageLastClientError(url: string, slug: string, chapter: string, isCover: bool, retries: int,
                                     answer: nat -> ImageOutcome, upload: UploadOutcome, store: Store)
    requires retries > 0 && answer(retries - 1) == ClientFailure
    requires forall j :: 0 <= j < retries - 1 ==> Continues(answer, retries, j)
    ensures DownloadImage(url, slug, chapter, isCover, retries, answer, upload, store)
         == Transfer(Raised(ClientError), [Throttle] + (Waits(url, answer, retries, 0, retries - 1) + [Get(url)]), store)
  {
    DownloadFromAfterWaits(url, slug, chapter, isCover, retries, answer, upload, store, 0, retries - 1);
    ClientErrorOnLastIteration(url, slug, chapter, isCover, retries, answer, upload, store);
  }

  /** An exception other than a client error, after continuing iterations
      only, escapes download_image with nothing stored, right after the GET
      that raised it. */
  lemma DownloadImageEscapes(url: string, slug: string, chapter: string, isCover: bool, retries: int,
                             answer: nat -> ImageOutcome, upload: UploadOutcome, store: Store, k: nat)
    requires k < retries
    requires answer(k) == OtherFailure || answer(k) == TooManyRequests(NotAnInteger)
    requires forall j :: 0 <= j < k ==> Continues(answer, retries, j)
    ensures DownloadImage(url, slug, chapter, isCover, retries, answer, upload, store)
         == Transfer(Raised(if answer(k) == OtherFailure then OtherError else ValueError),
                     [Throttle] + (Waits(url, answer, retries, 0, k) + [Get(url)]), store)
  {
    DownloadFromAfterWaits(url, slug, chapter, isCover, retries, answer, upload, store, 0, k);
    EscapeLeavesAtOnce(url, slug, chapter, isCover, retries, answer, upload, store, k);
  }

  /** When every iteration continues, the loop runs out: nothing is stored
      and the call returns None after one GET and one sleep per iteration. */
  lemma DownloadImageRunsOut(url: string, slug: string, chapter: string, isCover: bool, retries: int,
                             answer: nat -> ImageOutcome, upload: UploadOutcome, store: Store)
    requires retries >= 0
    requires forall j :: 0 <= j < retries ==> Continues(answer, retries, j)
    ensures DownloadImage(url, slug, chapter, isCover, retries, answer, upload, store)
         == Transfer(Returned(None), [Throttle] + Waits(url, answer, retries, 0, retries), store)
  {
    DownloadFromAfterWaits(url, slug, chapter, isCover, retries, answer, upload, store, 0, retries);
    assert Waits(url, answer, retries, 0, retries) + [] == Waits(url, answer, retries, 0, retries);
  }

  lemma JoinLog3(a: Event, b: Event, c: Event)
    ensures [a] + [b, c] == [a, b, c]
  {
  }

  lemma JoinLog5(a: Event, b: Event, c: Event, d: Event, e: Event)
    ensures [a] + ([b, c] + [d, e]) == [a, b, c, d, e]
  {
  }

  lemma JoinLog6(a: Event, b: Event, c: Event, d: Event, e: Event, f: Event)
    ensures [a] + ([b, c] + ([d, e] + [f])) == [a, b, c, d, e, f]
  {
  }

  /** Neither a cover nor a chapter: the first good response raises the
      ValueError, which is not a client error and so leaves the loop without
      a retry or an upload. */
  lemma NoTargetRaisesAtOnce(url: string, slug: string, retries: int, answer: nat -> ImageOutcome,
                             upload: UploadOutcome, store: Store)
    requires retries > 0 && answer(0) == ImageOk
    ensures DownloadImage(url, slug, "", false, retries, answer, upload, store)
         == Transfer(Raised(ValueError), [Throttle, Get(url)], store)
  {
    GoodResponseUploads(url, slug, "", false, retries, answer, upload, store, 0);
    assert AssetTarget(url, slug, "", false).None?;
  }

  /** An upload the SDK refuses makes download_image return "" at once: no
      second request and nothing stored. */
  lemma FailedUploadNotRetried(url: string, slug: string, chapter: string, isCover: bool, retries: int,
                               answer: nat -> ImageOutcome, store: Store)
    requires retries > 0 && answer(0) == ImageOk && (isCover || chapter != "")
    ensures DownloadImage(url, slug, chapter, isCover, retries, answer, SdkError, store)
         == Transfer(Returned(Some("")), [Throttle, Get(url), Upload(TargetId(AssetTarget(url, slug, chapter, isCover).value))], store)
  {
    GoodResponseUploads(url, slug, chapter, isCover, retries, answer, SdkError, store, 0);
    var t := AssetTarget(url, slug, chapter, isCover).value;
    assert Finish(url, slug, chapter, isCover, SdkError, store) == Transfer(Returned(Some("")), [Get(url), Upload(TargetId(t))], store);
    JoinLog3(Throttle, Get(url), Upload(TargetId(t)));
  }

  /** A 429 uses up an iteration: two 429s followed by a client error
      exhaust the default three iterations, so that single client error is
      re-raised after one wait per 429 and no other sleep. */
  lemma TooManyRequestsSpendsIterations(url: string, slug: string, chapter: string, isCover: bool,
                                        answer: nat -> ImageOutcome, upload: UploadOutcome, store: Store)
    requires answer(0) == TooManyRequests(Seconds(5)) && answer(1) == TooManyRequests(NoHeader)
    requires answer(2) == ClientFailure
    ensures DownloadImage(url, slug, chapter, isCover, DOWNLOAD_RETRIES, answer, upload, store)
         == Transfer(Raised(ClientError), [Throttle, Get(url), Sleep(5), Get(url), Sleep(60), Get(url)], store)
  {
    var r2 := DownloadFrom(url, slug, chapter, isCover, DOWNLOAD_RETRIES, answer, upload, store, 2);
    ClientErrorOnLastIteration(url, slug, chapter, isCover, DOWNLOAD_RETRIES, answer, upload, store);
    TooManyRequestsWaits(url, slug, chapter, isCover, DOWNLOAD_RETRIES, answer, upload, store, 1);
    var r1 := DownloadFrom(url, slug, chapter, isCover, DOWNLOAD_RETRIES, answer, upload, store, 1);
    assert RetryAfterSeconds(NoHeader) == 60;
    assert r1 == Retry(url, 60, r2);
    TooManyRequestsWaits(url, slug, chapter, isCover, DOWNLOAD_RETRIES, answer, upload, store, 0);
    var r0 := DownloadFrom(url, slug, chapter, isCover, DOWNLOAD_RETRIES, answer, upload, store, 0);
    assert r0 == Retry(url, 5, r1);
    JoinLog6(Throttle, Get(url), Sleep(5), Get(url), Sleep(60), Get(url));
  }

  /** Client errors on all three default iterations: sleeps of 1 s and 2 s
      between them, none after the last, whose error escapes. */
  lemma ClientErrorsThroughout(url: string, slug: string, chapter: string, isCover: bool,
                               answer: nat -> ImageOutcome, upload: UploadOutcome, store: Store)
    requires answer(0) == ClientFailure && answer(1) == ClientFailure && answer(2) == ClientFailure
    ensures DownloadImage(url, slug, chapter, isCover, DOWNLOAD_RETRIES, answer, upload, store)
         == Transfer(Raised(ClientError), [Throttle, Get(url), Sleep(1), Get(url), Sleep(2), Get(url)], store)
  {
    var r2 := DownloadFrom(url, slug, chapter, isCover, DOWNLOAD_RETRIES, answer, upload, store, 2);
    ClientErrorOnLastIteration(url, slug, chapter, isCover, DOWNLOAD_RETRIES, answer, upload, store);
    ClientErrorBacksOff(url, slug, chapter, isCover, DOWNLOAD_RETRIES, answer, upload, store, 1);
    var r1 := DownloadFrom(url, slug, chapter, isCover, DOWNLOAD_RETRIES, answer, upload, store, 1);
    assert Fetcher.Pow2(1) == 2;
    assert r1 == Retry(url, 2, r2);
    ClientErrorBacksOff(url, slug, chapter, isCover, DOWNLOAD_RETRIES, answer, upload, store, 0);
    var r0 := DownloadFrom(url, slug, chapter, isCover, DOWNLOAD_RETRIES, answer, upload, store, 0);
    assert r0 == Retry(url, 1, r1);
    JoinLog6(Throttle, Get(url), Sleep(1), Get(url), Sleep(2), Get(url));
  }

  /** An image URL `dir/name.ext` is filed under `name`. */
  lemma StemOfImageUrl(dir: string, name: string, ext: string)
    requires '/' !in name && '/' !in ext && '.' !in name
    ensures Stem(dir + "/" + name + "." + ext) == name
  {
    var file := name + "." + ext;
    assert dir + "/" + name + "." + ext == dir + "/" + file;
    LastSegmentAfterSlash(dir, file);
    BeforeDotOfDotted(name, ext);
  }

  /** A 429 with Retry-After: 5 followed by a good response: one 5-second
      wait, one repeated GET, then the upload under slug/chapter-N/stem. */
  lemma RetryAfterThenSuccess(u: string, slug: string, chapter: string, url: string, answer: nat -> ImageOutcome, store: Store)
    requires chapter != ""
    requires answer(0) == TooManyRequests(Seconds(5)) && answer(1) == ImageOk
    ensures var id := PublicId(slug + "/chapter-" + chapter, Stem(u));
      DownloadImage(u, slug, chapter, false, DOWNLOAD_RETRIES, answer, Uploaded(url), store)
      == Transfer(Returned(Some(url)), [Throttle, Get(u), Sleep(5), Get(u), Upload(id)], store + {id})
  {
    var id := PublicId(slug + "/chapter-" + chapter, Stem(u));
    GoodResponseUploads(u, slug, chapter, false, DOWNLOAD_RETRIES, answer, Uploaded(url), store, 1);
    var r1 := DownloadFrom(u, slug, chapter, false, DOWNLOAD_RETRIES, answer, Uploaded(url), store, 1);
    assert r1 == Transfer(Returned(Some(url)), [Get(u), Upload(id)], store + {id});
    TooManyRequestsWaits(u, slug, chapter, false, DOWNLOAD_RETRIES, answer, Uploaded(url), store, 0);
    JoinLog5(Throttle, Get(u), Sleep(5), Get(u), Upload(id));
  }

  /** `handle_cover_image`: no download at all when `file_exists(slug,
      "cover")` holds; otherwise the cover download, whose URL is returned
      when it is non-empty and None in its place otherwise. Exceptions of the
      download escape. */
  function HandleCoverImage(coverUrl: string, slug: string, fault: bool, answer: nat -> ImageOutcome,
                            upload: UploadOutcome, store: Store): (r: Transfer)
    ensures FileExists(store, slug, "cover", fault) ==> r == Transfer(Returned(None), [], store)
    ensures r.result.Returned? && r.result.value.Some? ==>
      r.result.value.value != "" && FileExists(r.store, slug, "cover", false)
    ensures r.store == store || r.store == store + {PublicId(slug, "cover")}
    ensures !FileExists(store, slug, "cover", fault) ==>
      var t := DownloadImage(coverUrl, slug, "", true, DOWNLOAD_RETRIES, answer, upload, store);
      r.log == t.log && r.store == t.store
      && r.result == (if t.result == Returned(Some("")) then Returned(None) else t.result)
  {
    if FileExists(store, slug, "cover", fault) then Transfer(Returned(None), [], store)
    else
      var t := DownloadImage(coverUrl, slug, "", true, DOWNLOAD_RETRIES, answer, upload, store);
      match t.result
      case Raised(_) => t
      case Returned(u) =>
        if u.Some? && u.value != "" then
          UploadThenExists(store, slug, "cover", upload.secureUrl);
          t
        else Transfer(Returned(None), t.log, t.store)
  }

  /** Idempotence: once a cover upload has succeeded, handling the cover again
      (with a working query) downloads nothing and returns None, whatever the
      server would answer. */
  lemma CoverHandledOnce(coverUrl: string, slug: string, fault: bool, answer: nat -> ImageOutcome, upload: UploadOutcome,
                         store: Store, coverUrl2: string, answer2: nat -> ImageOutcome, upload2: UploadOutcome)
    requires HandleCoverImage(coverUrl, slug, fault, answer, upload, store).result.Returned?
    requires HandleCoverImage(coverUrl, slug, fault, answer, upload, store).result.value.Some?
    ensures var after := HandleCoverImage(coverUrl, slug, fault, answer, upload, store).store;
      HandleCoverImage(coverUrl2, slug, false, answer2, upload2, after) == Transfer(Returned(None), [], after)
  {
  }

  /** A cover that is not stored yet is downloaded: after any continuing
      iterations the first good response is uploaded under slug/cover, and
      its secure URL is what handle_cover_image returns. */
  lemma CoverUploadedWhenAbsent(coverUrl: string, slug: string, fault: bool, answer: nat -> ImageOutcome,
                                secureUrl: string, store: Store, k: nat)
    requires !FileExists(store, slug, "cover", fault)
    requires k < DOWNLOAD_RETRIES && answer(k) == ImageOk
    requires forall j :: 0 <= j < k ==> Continues(answer, DOWNLOAD_RETRIES, j)
    requires secureUrl != ""
    ensures HandleCoverImage(coverUrl, slug, fault, answer, Uploaded(secureUrl), store)
         == Transfer(Returned(Some(secureUrl)),
                     [Throttle] + (Waits(coverUrl, answer, DOWNLOAD_RETRIES, 0, k) + [Get(coverUrl), Upload(PublicId(slug, "cover"))]),
                     store + {PublicId(slug, "cover")})
  {
    DownloadImageFirstSuccess(coverUrl, slug, "", true, DOWNLOAD_RETRIES, answer, Uploaded(secureUrl), store, k);
    assert Finish(coverUrl, slug, "", true, Uploaded(secureUrl), store)
        == Transfer(Returned(Some(secureUrl)), [Get(coverUrl), Upload(PublicId(slug, "cover"))], store + {PublicId(slug, "cover")});
  }
}

=== FILE: effects.dfy ===
/** Values shared by every part of the model: optional values, the exceptions
    the scraper distinguishes, and the trace of observable effects a call has.
    Network, sleeping and uploading are not performed; they are recorded. */
module Effects {

  datatype Option<+T> = None | Some(value: T)

  /** The Python exception classes the modelled code tells apart. */
  datatype Fault =
    | ClientError   // aiohttp.ClientError: connection failures, non-2xx statuses
    | ValueError    // ValueError: no upload target, a Retry-After that is not an integer
    | OtherError    // any other exception (timeouts, missing keys, database errors)

  /** What a call produced: a returned value, or an exception that escaped it. */
  datatype Outcome<+T> = Returned(value: T) | Raised(fault: Fault)

  /** Observable effects, in the order they happen. */
  datatype Event =
    | Throttle                  // the random pause rate_limited puts before a download
    | Get(url: string)          // one HTTP GET
    | Sleep(seconds: int)       // one asyncio.sleep of a fixed duration
    | Upload(publicId: string)  // one upload call to the asset host

  /** The result of a call together with the effects it had. */
  datatype Run<+T> = Run(result: Outcome<T>, log: seq<Event>)

  predicate IsGet(e: Event) { e.Get? }

  predicate IsUpload(e: Event) { e.Upload? }

  /** Number of events of `log` that satisfy `p`. */
  function Count(log: seq<Event>, p: Event -> bool): (n: nat)
    ensures n <= |log|
    ensures n == 0 <==> forall i :: 0 <= i < |log| ==> !p(log[i])
  {
    if |log| == 0 then 0
    else
      var rest := Count(log[1..], p);
      assert forall i :: 1 <= i < |log| ==> log[i] == log[1..][i - 1];
      (if p(log[0]) then 1 else 0) + rest
  }

  /** Number of HTTP requests a log records. */
  function Requests(log: seq<Event>): nat { Count(log, IsGet) }

  /** Number of upload calls a log records. */
  function Uploads(log: seq<Event>): nat { Count(log, IsUpload) }

  /** The durations slept, in order. */
  function Sleeps(log: seq<Event>): (d: seq<int>)
    ensures |d| <= |log|
  {
    if |log| == 0 then []
    else (if log[0].Sleep? then [log[0].seconds] else []) + Sleeps(log[1..])
  }

  lemma {:induction false} CountAppend(a: seq<Event>, b: seq<Event>, p: Event -> bool)
    ensures Count(a + b, p) == Count(a, p) + Count(b, p)
  {
    if |a| == 0 {
      assert a + b == b;
    } else {
      assert (a + b)[1..] == a[1..] + b;
      CountAppend(a[1..], b, p);
    }
  }

  lemma {:induction false} SleepsAppend(a: seq<Event>, b: seq<Event>)
    ensures Sleeps(a + b) == Sleeps(a) + Sleeps(b)
  {
    if |a| == 0 {
      assert a + b == b;
    } else {
      assert (a + b)[1..] == a[1..] + b;
      SleepsAppend(a[1..], b);
      var head := if a[0].Sleep? then [a[0].seconds] else [];
      calc {
        Sleeps(a + b);
        head + Sleeps(a[1..] + b);
        head + (Sleeps(a[1..]) + Sleeps(b));
        (head + Sleeps(a[1..])) + Sleeps(b);
      }
    }
  }
}

=== FILE: fetcher.dfy ===
/** `fetch_data_with_retry`: a page GET retried with exponential back-off.
    The server's answer to each attempt is given as `answer(attempt)`. */
module Fetcher {
  import opened Effects

  const MAX_RETRIES := 3
  const RETRY_DELAY := 2

  /** How one page request ends: the body of a 2xx response, or an exception
      (transport error or a status `raise_for_status` rejects). */
  datatype PageOutcome = PageOk(body: string) | PageFailed(fault: Fault)

  function Pow2(k: nat): (r: nat)
    ensures r >= 1
  {
    if k == 0 then 1 else 2 * Pow2(k - 1)
  }

  /** Every attempt in `from .. k-1` failed. */
  predicate FailedBefore(answer: nat -> PageOutcome, from: nat, k: nat)
  {
    forall i :: from <= i < k ==> answer(i).PageFailed?
  }

  /** The effects of attempts `from .. to-1`, in closed form: a GET per
      attempt and, between two attempts, a sleep of RETRY_DELAY * 2^attempt
      for the attempt that just failed. */
  function Backoff(url: string, from: nat, to: nat): (log: seq<Event>)
    requires from < to
    ensures |log| == 2 * (to - from) - 1
  {
    seq(2 * (to - from) - 1, j requires 0 <= j => if j % 2 == 0 then Get(url) else Sleep(RETRY_DELAY * Pow2(from + j / 2)))
  }

  /** Peeling the first attempt off a back-off schedule. */
  lemma BackoffStep(url: string, from: nat, to: nat)
    requires from + 1 < to
    ensures Backoff(url, from, to) == [Get(url), Sleep(RETRY_DELAY * Pow2(from))] + Backoff(url, from + 1, to)
  {
    var a := Backoff(url, from, to);
    var b := [Get(url), Sleep(RETRY_DELAY * Pow2(from))] + Backoff(url, from + 1, to);
    assert |a| == |b|;
    forall j | 2 <= j < |a|
      ensures a[j] == b[j]
    {
      assert (j - 2) % 2 == j % 2;
      assert from + 1 + (j - 2) / 2 == from + j / 2;
    }
  }

  /** A back-off schedule over n attempts makes n requests. */
  lemma {:induction false} BackoffRequests(url: string, from: nat, to: nat)
    requires from < to
    ensures Requests(Backoff(url, from, to)) == to - from
    decreases (to as int) - (from as int)
  {
    if from + 1 == to {
      assert Backoff(url, from, to) == [Get(url)];
      assert [Get(url)][1..] == [];
      assert Count([Get(url)], IsGet) == 1;
    } else {
      BackoffStep(url, from, to);
      BackoffRequests(url, from + 1, to);
      OneRequestThenSleep(url, RETRY_DELAY * Pow2(from), Backoff(url, from + 1, to));
    }
  }

  lemma OneRequestThenSleep(url: string, d: int, rest: seq<Event>)
    ensures Requests([Get(url), Sleep(d)] + rest) == 1 + Requests(rest)
  {
    var head := [Get(url), Sleep(d)];
    assert head[1..] == [Sleep(d)];
    assert [Sleep(d)][1..] == [];
    CountAppend(head, rest, IsGet);
  }

  /** The loop body of `fetch_data_with_retry` for `attempt` and every later
      iteration: return the first body; after a failure sleep and go on, except
      on the last iteration, which re-raises. */
  function FetchFrom(url: string, maxRetries: int, answer: nat -> PageOutcome, attempt: nat): (r: Run<Option<string>>)
    requires attempt < maxRetries
    ensures r.result.Raised? ==>
      FailedBefore(answer, attempt, maxRetries) && r.result == Raised(answer(maxRetries - 1).fault)
    ensures r.result.Returned? ==>
      r.result.value.Some? &&
      exists k :: attempt <= k < maxRetries && FailedBefore(answer, attempt, k) && answer(k) == PageOk(r.result.value.value)
    decreases maxRetries - attempt
  {
    match answer(attempt)
    case PageOk(body) => Run(Returned(Some(body)), [Get(url)])
    case PageFailed(f) =>
      if attempt == maxRetries - 1 then Run(Raised(f), [Get(url)])
      else
        var rest := FetchFrom(url, maxRetries, answer, attempt + 1);
        Run(rest.result, [Get(url), Sleep(RETRY_DELAY * Pow2(attempt))] + rest.log)
  }

  /** Each iteration makes one request, and there are at most as many
      iterations as attempts left. */
  lemma {:induction false} FetchFromRequests(url: string, maxRetries: int, answer: nat -> PageOutcome, attempt: nat)
    requires attempt < maxRetries
    ensures 1 <= Requests(FetchFrom(url, maxRetries, answer, attempt).log) <= maxRetries - attempt
    decreases maxRetries - attempt
  {
    var r := FetchFrom(url, maxRetries, answer, attempt);
    if answer(attempt).PageOk? || attempt == maxRetries - 1 {
      assert r.log == [Get(url)];
      assert [Get(url)][1..] == [];
    } else {
      var rest := FetchFrom(url, maxRetries, answer, attempt + 1);
      assert r.log == [Get(url), Sleep(RETRY_DELAY * Pow2(attempt))] + rest.log;
      FetchFromRequests(url, maxRetries, answer, attempt + 1);
      OneRequestThenSleep(url, RETRY_DELAY * Pow2(attempt), rest.log);
    }
  }

  /** `fetch_data_with_retry(url, maxRetries)`; with no iteration at all the
      function falls off its loop and returns None. */
  function FetchDataWithRetry(url: string, maxRetries: int, answer: nat -> PageOutcome): (r: Run<Option<string>>)
    ensures maxRetries <= 0 ==> r == Run(Returned(None), [])
    ensures maxRetries > 0 ==> 1 <= Requests(r.log) <= maxRetries
    ensures r.result.Raised? ==>
      maxRetries > 0 && FailedBefore(answer, 0, maxRetries) && r.result == Raised(answer(maxRetries - 1).fault)
    ensures r.result.Returned? && maxRetries > 0 ==>
      r.result.value.Some? &&
      exists k :: 0 <= k < maxRetries && FailedBefore(answer, 0, k) && answer(k) == PageOk(r.result.value.value)
  {
    if maxRetries <= 0 then Run(Returned(None), [])
    else
      FetchFromRequests(url, maxRetries, answer, 0);
      FetchFrom(url, maxRetries, answer, 0)
  }

  /** The first successful attempt `k` decides the result: its body is
      returned after exactly k+1 requests, with the back-off sleeps between. */
  lemma {:induction false} FetchFromFirstSuccess(url: string, maxRetries: int, answer: nat -> PageOutcome, attempt: nat, k: nat)
    requires attempt <= k < maxRetries
    requires FailedBefore(answer, attempt, k) && answer(k).PageOk?
    ensures FetchFrom(url, maxRetries, answer, attempt) == Run(Returned(Some(answer(k).body)), Backoff(url, attempt, k + 1))
    decreases (k as int) - (attempt as int)
  {
    if k == attempt {
      assert Backoff(url, attempt, k + 1) == [Get(url)];
      assert FetchFrom(url, maxRetries, answer, attempt) == Run(Returned(Some(answer(k).body)), [Get(url)]);
    } else {
      var rest := FetchFrom(url, maxRetries, answer, attempt + 1);
      assert answer(attempt).PageFailed?;
      assert FetchFrom(url, maxRetries, answer, attempt)
          == Run(rest.result, [Get(url), Sleep(RETRY_DELAY * Pow2(attempt))] + rest.log);
      FetchFromFirstSuccess(url, maxRetries, answer, attempt + 1, k);
      BackoffStep(url, attempt, k + 1);
      assert rest.log == Backoff(url, attempt + 1, k + 1);
    }
  }

  /** When every attempt fails, the last attempt's error escapes after all
      attempts were made, and no sleep follows the last one. */
  lemma {:induction false} FetchFromAllFail(url: string, maxRetries: int, answer: nat -> PageOutcome, attempt: nat)
    requires attempt < maxRetries
    requires FailedBefore(answer, attempt, maxRetries)
    ensures FetchFrom(url, maxRetries, answer, attempt) == Run(Raised(answer(maxRetries - 1).fault), Backoff(url, attempt, maxRetries))
    decreases maxRetries - attempt
  {
    if attempt == maxRetries - 1 {
      assert Backoff(url, attempt, maxRetries) == [Get(url)];
    } else {
      FetchFromAllFail(url, maxRetries, answer, attempt + 1);
      BackoffStep(url, attempt, maxRetries);
    }
  }

  /** The whole contract of `fetch_data_with_retry`: no request and None for a
      non-positive bound; otherwise at most maxRetries requests, the first
      success returned, and the last error re-raised when all attempts fail. */
  lemma FetchDataWithRetrySpec(url: string, maxRetries: int, answer: nat -> PageOutcome)
    ensures maxRetries <= 0 ==> FetchDataWithRetry(url, maxRetries, answer) == Run(Returned(None), [])
    ensures maxRetries > 0 ==> 1 <= Requests(FetchDataWithRetry(url, maxRetries, answer).log) <= maxRetries
    ensures forall k :: 0 <= k < maxRetries && FailedBefore(answer, 0, k) && answer(k).PageOk? ==>
      FetchDataWithRetry(url, maxRetries, answer) == Run(Returned(Some(answer(k).body)), Backoff(url, 0, k + 1))
    ensures maxRetries > 0 && FailedBefore(answer, 0, maxRetries) ==>
      FetchDataWithRetry(url, maxRetries, answer) == Run(Raised(answer(maxRetries - 1).fault), Backoff(url, 0, maxRetries))
  {
    forall k | 0 <= k < maxRetries && FailedBefore(answer, 0, k) && answer(k).PageOk?
      ensures FetchDataWithRetry(url, maxRetries, answer) == Run(Returned(Some(answer(k).body)), Backoff(url, 0, k + 1))
    {
      FetchFromFirstSuccess(url, maxRetries, answer, 0, k);
    }
    if maxRetries > 0 {
      if FailedBefore(answer, 0, maxRetries) {
        FetchFromAllFail(url, maxRetries, answer, 0);
        BackoffRequests(url, 0, maxRetries);
      } else {
        var k :| 0 <= k < maxRetries && answer(k).PageOk?;
        while k > 0 && !FailedBefore(answer, 0, k)
          invariant 0 <= k < maxRetries && answer(k).PageOk?
          decreases k
        {
          var j :| 0 <= j < k && answer(j).PageOk?;
          k := j;
        }
        FetchFromFirstSuccess(url, maxRetries, answer, 0, k);
        BackoffRequests(url, 0, k + 1);
      }
    }
  }

  /** Two transport failures then a success, with the default bound: the
      body comes back after sleeping 2 s and then 4 s. */
  lemma TwoFailuresThenSuccess(url: string, answer: nat -> PageOutcome)
    requires answer(0).PageFailed? && answer(1).PageFailed? && answer(2).PageOk?
    ensures FetchDataWithRetry(url, MAX_RETRIES, answer)
         == Run(Returned(Some(answer(2).body)), [Get(url), Sleep(2), Get(url), Sleep(4), Get(url)])
  {
    FetchFromFirstSuccess(url, MAX_RETRIES, answer, 0, 2);
    assert Backoff(url, 0, 3) == [Get(url), Sleep(2), Get(url), Sleep(4), Get(url)];
  }

  /** Three failures with the default bound: the third error escapes, and only
      two sleeps (2 s, 4 s) happened. */
  lemma ThreeFailures(url: string, answer: nat -> PageOutcome)
    requires answer(0).PageFailed? && answer(1).PageFailed? && answer(2).PageFailed?
    ensures FetchDataWithRetry(url, MAX_RETRIES, answer)
         == Run(Raised(answer(2).fault), [Get(url), Sleep(2), Get(url), Sleep(4), Get(url)])
  {
    FetchFromAllFail(url, MAX_RETRIES, answer, 0);
    assert Backoff(url, 0, 3) == [Get(url), Sleep(2), Get(url), Sleep(4), Get(url)];
  }
}

=== FILE: metadata.dfy ===
/** `scrape_comic_meta` and `save_comic_metadata`: the comic's metadata, the
    cover handled on the way, and the upsert by slug into the comics table.
    The database session is a value: a failed transaction leaves the table
    as it was. */
module Metadata {
  import opened Effects
  import opened ComicModel
  import opened AssetStore
  import opened Downloader
  import Fetcher

  /** What `extract_comic_meta` reads off the page (type and status already
      lower-cased, as it does). */
  datatype MetaFields = MetaFields(
    title: string,
    author: string,
    kind: string,
    status: string,
    release: string,
    genres: seq<string>,
    synopsis: string,
    rating: string)

  /** The `comic_meta` dict: the extracted fields, and `cover_image_url`,
      a key present only when a cover was uploaded. */
  datatype ComicMeta = ComicMeta(fields: MetaFields, coverImageUrl: Option<string>)

  /** `row` is the record save_comic_metadata builds from `meta` for `slug` at `now`. */
  predicate RowFrom(row: Comic, meta: ComicMeta, slug: string, now: int)
  {
    && row.title == meta.fields.title
    && row.author == meta.fields.author
    && TypeName(row.kind) == meta.fields.kind
    && StatusName(row.status) == meta.fields.status
    && row.release == meta.fields.release
    && row.updatedOn == now
    && row.genres == meta.fields.genres
    && row.synopsis == meta.fields.synopsis
    && row.rating == Some(meta.fields.rating)
    && meta.coverImageUrl == Some(row.coverImageUrl)
    && row.slug == slug
  }

  /** The new row for a slug the table lacks. None when building it raises
      (the dict has no `cover_image_url`) or when the database refuses it
      (a type or status outside its enum). */
  function NewRow(meta: ComicMeta, slug: string, now: int): (r: Option<Comic>)
    ensures r.Some? <==> meta.coverImageUrl.Some? && ParseType(meta.fields.kind).Some? && ParseStatus(meta.fields.status).Some?
    ensures r.Some? ==> RowFrom(r.value, meta, slug, now)
  {
    match (meta.coverImageUrl, ParseType(meta.fields.kind), ParseStatus(meta.fields.status))
    case (Some(cover), Some(kind), Some(status)) =>
      Some(Comic(meta.fields.title, meta.fields.author, kind, status, meta.fields.release, now,
                 meta.fields.genres, meta.fields.synopsis, Some(meta.fields.rating), cover, slug))
    case _ => None
  }

  /** `save_comic_metadata(comic_meta, slug)` at time `now`; `fault` stands for
      any database error, after which the session rolls back. An existing slug
      only has its `updated_on` refreshed; a new slug gets a full row. */
  function SaveComicMetadata(db: ComicDb, meta: ComicMeta, slug: string, now: int, fault: bool): (db': ComicDb)
    ensures SlugKeyed(db) ==> SlugKeyed(db')
    ensures fault ==> db' == db
    ensures !fault && slug in db ==>
      && db'.Keys == db.Keys
      && db'[slug] == db[slug].(updatedOn := now)
      && forall k :: k in db && k != slug ==> db'[k] == db[k]
    ensures !fault && slug !in db && NewRow(meta, slug, now).Some? ==>
      && db'.Keys == db.Keys + {slug}
      && RowFrom(db'[slug], meta, slug, now)
      && forall k :: k in db ==> db'[k] == db[k]
    ensures slug !in db && NewRow(meta, slug, now).None? ==> db' == db
  {
    if fault then db
    else if slug in db then db[slug := db[slug].(updatedOn := now)]
    else match NewRow(meta, slug, now)
      case Some(row) => db[slug := row]
      case None => db
  }

  /** A second save of the same slug (at a later time, with whatever
      metadata) changes nothing but that row's timestamp. */
  lemma SaveTwiceOnlyTouches(db: ComicDb, meta1: ComicMeta, meta2: ComicMeta, slug: string, t1: int, t2: int)
    requires NewRow(meta1, slug, t1).Some? || slug in db
    ensures var once := SaveComicMetadata(db, meta1, slug, t1, false);
      var twice := SaveComicMetadata(once, meta2, slug, t2, false);
      && twice.Keys == once.Keys
      && twice[slug] == once[slug].(updatedOn := t2)
      && forall k :: k in once && k != slug ==> twice[k] == once[k]
  {
  }

  /** What scrape_comic_meta produced: the metadata dict or None, with the
      cover handling's effects. */
  datatype MetaScrape = MetaScrape(meta: Option<ComicMeta>, log: seq<Event>, store: Store)

  /** `scrape_comic_meta(session, url, slug)`: one plain GET of the comic page
      (no retry), the extracted fields, and the cover: the page's cover image
      (`coverSrc`, None when the markup has none, which raises) is handled and
      its URL recorded only when one came back. Any exception yields None. */
  function ScrapeComicMeta(comicUrl: string, page: Fetcher.PageOutcome, fields: MetaFields, coverSrc: Option<string>,
                           slug: string, coverFault: bool, answer: nat -> ImageOutcome, upload: UploadOutcome,
                           store: Store): (r: MetaScrape)
    ensures |r.log| > 0 && r.log[0] == Get(comicUrl)
    ensures r.meta.Some? ==> r.meta.value.fields == fields
    ensures r.meta.Some? && r.meta.value.coverImageUrl.Some? ==>
      r.meta.value.coverImageUrl.value != "" && FileExists(r.store, slug, "cover", false)
    ensures FileExists(store, slug, "cover", coverFault) ==>
      r.store == store && r.log == [Get(comicUrl)] && (r.meta.Some? ==> r.meta.value.coverImageUrl.None?)
    ensures r.store == store || r.store == store + {PublicId(slug, "cover")}
    ensures page.PageFailed? || coverSrc.None? ==> r == MetaScrape(None, [Get(comicUrl)], store)
    ensures r.meta.None? <==>
      page.PageFailed? || coverSrc.None?
      || HandleCoverImage(coverSrc.value, slug, coverFault, answer, upload, store).result.Raised?
    ensures page.PageOk? && coverSrc.Some? ==>
      var cover := HandleCoverImage(coverSrc.value, slug, coverFault, answer, upload, store);
      && r.log == [Get(comicUrl)] + cover.log
      && r.store == cover.store
      && (r.meta.Some? ==> r.meta.value.coverImageUrl == cover.result.value)
  {
    if page.PageFailed? || coverSrc.None? then MetaScrape(None, [Get(comicUrl)], store)
    else
      var cover := HandleCoverImage(coverSrc.value, slug, coverFault, answer, upload, store);
      match cover.result
      case Raised(_) => MetaScrape(None, [Get(comicUrl)] + cover.log, cover.store)
      case Returned(url) => MetaScrape(Some(ComicMeta(fields, url)), [Get(comicUrl)] + cover.log, cover.store)
  }

  /** The cover that is already stored is not uploaded again, so its URL is
      missing from the metadata and a comic the table lacks is not inserted:
      the save raises on the missing key and rolls back. */
  lemma StoredCoverBlocksFirstInsert(comicUrl: string, page: Fetcher.PageOutcome, fields: MetaFields, coverSrc: Option<string>,
                                     slug: string, answer: nat -> ImageOutcome, upload: UploadOutcome,
                                     store: Store, db: ComicDb, now: int, dbFault: bool)
    requires FileExists(store, slug, "cover", false) && slug !in db
    requires ScrapeComicMeta(comicUrl, page, fields, coverSrc, slug, false, answer, upload, store).meta.Some?
    ensures var meta := ScrapeComicMeta(comicUrl, page, fields, coverSrc, slug, false, answer, upload, store).meta.value;
      SaveComicMetadata(db, meta, slug, now, dbFault) == db
  {
  }
}

=== FILE: orchestrator.dfy ===
/** `main(title)`: fetch the comic page with retries, scrape its metadata and
    cover, list its chapters, read the starting chapter, save the metadata,
    filter the chapters by the start number and by a pre-check against the
    asset store, and hand the rest to the chapter pipeline. The hand-off is
    concurrent in the program; here it is the list of chapters dispatched. */
module Orchestrator {
  import opened Effects
  import opened Text
  import opened AssetStore
  import opened Downloader
  import opened ChapterList
  import opened ComicModel
  import opened Metadata
  import opened ChapterPipeline
  import Fetcher

  /** The width of the semaphore around chapter downloads; concurrency itself
      is not modelled. */
  const MAX_CONCURRENT_DOWNLOADS := 3

  /** What the prompt for the starting chapter read: nothing, a number, or
      text `float()` refuses. */
  datatype StartChoice = AllChapters | StartAt(number: real) | Unparsable

  /** `not start_chapter or ch['number'] >= start_chapter`: no start and a
      start of 0 both keep every chapter. */
  predicate Allows(start: StartChoice, c: Chapter): (b: bool)
    ensures start.StartAt? && start.number != 0.0 ==> (b <==> start.number <= c.number)
    ensures !(start.StartAt? && start.number != 0.0) ==> b
  {
    match start
    case StartAt(x) => x == 0.0 || c.number >= x
    case _ => true
  }

  /** `r` is `s` with some entries left out, the rest in their order. */
  predicate InOrderWithin(r: seq<Chapter>, s: seq<Chapter>)
    decreases |s|
  {
    if |r| == 0 then true
    else if |s| == 0 then false
    else (r[0] == s[0] && InOrderWithin(r[1..], s[1..])) || InOrderWithin(r, s[1..])
  }

  lemma {:induction false} InOrderWithinTransitive(a: seq<Chapter>, b: seq<Chapter>, c: seq<Chapter>)
    requires InOrderWithin(a, b) && InOrderWithin(b, c)
    ensures InOrderWithin(a, c)
    decreases |c|
  {
    if |a| > 0 {
      if InOrderWithin(b, c[1..]) {
        InOrderWithinTransitive(a, b, c[1..]);
      } else if a[0] == b[0] && InOrderWithin(a[1..], b[1..]) {
        InOrderWithinTransitive(a[1..], b[1..], c[1..]);
      } else {
        InOrderWithinTransitive(a, b[1..], c[1..]);
      }
    }
  }

  /** The first list comprehension of main's filter. */
  function KeepFromStart(chapters: seq<Chapter>, start: StartChoice): (r: seq<Chapter>)
    ensures InOrderWithin(r, chapters)
    ensures |r| <= |chapters|
    ensures forall c :: c in r <==> c in chapters && Allows(start, c)
    ensures SortedByNumber(chapters) ==> SortedByNumber(r)
  {
    if |chapters| == 0 then []
    else
      var rest := KeepFromStart(chapters[1..], start);
      assert chapters == [chapters[0]] + chapters[1..];
      if Allows(start, chapters[0]) then
        var r := [chapters[0]] + rest;
        assert r[1..] == rest;
        assert forall c :: c in r <==> c == chapters[0] || c in rest;
        if SortedByNumber(chapters) then
          SortedCons(chapters, rest);
          r
        else r
      else rest
  }

  /** The filter keeps every copy of an allowed chapter and no copy of any
      other: the result is the sub-multiset of allowed chapters. */
  lemma {:induction false} KeepFromStartCounts(chapters: seq<Chapter>, start: StartChoice)
    ensures forall c :: multiset(KeepFromStart(chapters, start))[c] == if Allows(start, c) then multiset(chapters)[c] else 0
  {
    if |chapters| > 0 {
      KeepFromStartCounts(chapters[1..], start);
      FilterStep(chapters, KeepFromStart(chapters[1..], start), c => Allows(start, c));
    }
  }

  /** A sorted list's head goes in front of any sorted selection of its tail. */
  lemma SortedCons(s: seq<Chapter>, rest: seq<Chapter>)
    requires |s| > 0 && SortedByNumber(s) && SortedByNumber(rest)
    requires forall c :: c in rest ==> c in s[1..]
    ensures SortedByNumber([s[0]] + rest)
  {
    var r := [s[0]] + rest;
    forall i, j | 0 <= i < j < |r| ensures r[i].number <= r[j].number {
      assert r[j] == rest[j - 1];
      if i > 0 {
        assert r[i] == rest[i - 1];
      } else {
        assert rest[j - 1] in s[1..];
        var m :| 0 <= m < |s[1..]| && s[1..][m] == rest[j - 1];
        assert s[m + 1] == rest[j - 1];
      }
    }
  }

  /** When every chapter passes, the filter keeps the list as it is. */
  lemma {:induction false} KeepAllWhenAllAllowed(chapters: seq<Chapter>, start: StartChoice)
    requires forall i :: 0 <= i < |chapters| ==> Allows(start, chapters[i])
    ensures KeepFromStart(chapters, start) == chapters
  {
    if |chapters| > 0 {
      KeepAllWhenAllAllowed(chapters[1..], start);
      assert chapters == [chapters[0]] + chapters[1..];
    }
  }

  /** On the sorted chapter list a start number cuts off a prefix: what is
      kept is a suffix, and everything before it is below the start. */
  lemma {:induction false} KeepFromStartIsSuffix(chapters: seq<Chapter>, x: real)
    requires SortedByNumber(chapters) && x != 0.0
    ensures exists k :: (0 <= k <= |chapters| && KeepFromStart(chapters, StartAt(x)) == chapters[k..]
                         && forall j :: 0 <= j < k ==> chapters[j].number < x)
  {
    if |chapters| == 0 {
      assert KeepFromStart(chapters, StartAt(x)) == chapters[0..];
    } else if chapters[0].number >= x {
      forall i | 0 <= i < |chapters| ensures Allows(StartAt(x), chapters[i]) {
        if i > 0 { assert chapters[0].number <= chapters[i].number; }
      }
      KeepAllWhenAllAllowed(chapters, StartAt(x));
      assert KeepFromStart(chapters, StartAt(x)) == chapters[0..];
    } else {
      var tail := chapters[1..];
      assert SortedByNumber(tail) by {
        forall i, j | 0 <= i < j < |tail| ensures tail[i].number <= tail[j].number {
          assert tail[i] == chapters[i + 1] && tail[j] == chapters[j + 1];
        }
      }
      KeepFromStartIsSuffix(tail, x);
      var k :| 0 <= k <= |tail| && KeepFromStart(tail, StartAt(x)) == tail[k..]
        && (forall j :: 0 <= j < k ==> tail[j].number < x);
      assert tail[k..] == chapters[k + 1..];
      forall j | 0 <= j < k + 1 ensures chapters[j].number < x {
        if j > 0 { assert chapters[j] == tail[j - 1]; }
      }
    }
  }

  /** The key of the pre-check: `f"{title}/chapter-{chapter['number']}"`,
      with the float rendered by `render`. */
  function PrefilterKey(title: string, rendered: string): string
  {
    title + "/chapter-" + rendered
  }

  /** One step of a list comprehension's filter: putting the head in front
      of the filtered tail when it passes keeps each chapter's count at its
      count in the list for kept chapters, and at zero for the others. */
  lemma FilterStep(chapters: seq<Chapter>, rest: seq<Chapter>, keep: Chapter -> bool)
    requires |chapters| > 0
    requires forall c :: multiset(rest)[c] == if keep(c) then multiset(chapters[1..])[c] else 0
    ensures var r := if keep(chapters[0]) then [chapters[0]] + rest else rest;
      forall c :: multiset(r)[c] == if keep(c) then multiset(chapters)[c] else 0
  {
    assert chapters == [chapters[0]] + chapters[1..];
  }

  /** The pre-check keeps a chapter unless its key has a stored id under it;
      `fault(key)` stands for that query raising (read as absent). */
  predicate NotYetStored(c: Chapter, title: string, render: real -> string, store: Store, fault: string -> bool): (b: bool)
    ensures b <==> fault(PrefilterKey(title, render(c.number)))
                   || forall id :: id in store ==> !(PrefilterKey(title, render(c.number)) <= id)
  {
    var key := PrefilterKey(title, render(c.number));
    !FolderExists(store, key, fault(key))
  }

  /** The second list comprehension of main's filter. */
  function DropExisting(chapters: seq<Chapter>, title: string, render: real -> string, store: Store,
                        fault: string -> bool): (r: seq<Chapter>)
    ensures InOrderWithin(r, chapters)
    ensures |r| <= |chapters|
    ensures forall c :: c in r <==> c in chapters && NotYetStored(c, title, render, store, fault)
    ensures SortedByNumber(chapters) ==> SortedByNumber(r)
  {
    if |chapters| == 0 then []
    else
      var rest := DropExisting(chapters[1..], title, render, store, fault);
      assert chapters == [chapters[0]] + chapters[1..];
      if NotYetStored(chapters[0], title, render, store, fault) then
        var r := [chapters[0]] + rest;
        assert r[1..] == rest;
        assert forall c :: c in r <==> c == chapters[0] || c in rest;
        if SortedByNumber(chapters) then
          SortedCons(chapters, rest);
          r
        else r
      else rest
  }

  /** The pre-check keeps every copy of a chapter not yet stored and no copy
      of any other. */
  lemma {:induction false} DropExistingCounts(chapters: seq<Chapter>, title: string, render: real -> string,
                                              store: Store, fault: string -> bool)
    ensures forall c :: multiset(DropExisting(chapters, title, render, store, fault))[c]
                     == if NotYetStored(c, title, render, store, fault) then multiset(chapters)[c] else 0
  {
    if |chapters| > 0 {
      DropExistingCounts(chapters[1..], title, render, store, fault);
      FilterStep(chapters, DropExisting(chapters[1..], title, render, store, fault),
                 c => NotYetStored(c, title, render, store, fault));
    }
  }

  /** When no chapter's key is stored, the pre-check drops nothing. */
  lemma {:induction false} DropNothingWhenNoneStored(chapters: seq<Chapter>, title: string, render: real -> string,
                                                     store: Store, fault: string -> bool)
    requires forall i :: 0 <= i < |chapters| ==> NotYetStored(chapters[i], title, render, store, fault)
    ensures DropExisting(chapters, title, render, store, fault) == chapters
  {
    if |chapters| > 0 {
      DropNothingWhenNoneStored(chapters[1..], title, render, store, fault);
      assert chapters == [chapters[0]] + chapters[1..];
    }
  }

  /** An id the chapter pipeline stores: title, "/chapter-", a digit run, "/"
      and a filename. */
  predicate IsChapterImageId(id: string, title: string)
  {
    var head := title + "/chapter-";
    && head <= id
    && var rest := id[|head|..];
    && LeadingDigits(rest) != []
    && |LeadingDigits(rest)| < |rest|
    && rest[|LeadingDigits(rest)|] == '/'
  }

  /** Every image the pipeline uploads gets such an id. */
  lemma PipelineIdsAreChapterImageIds(title: string, digits: string, filename: string)
    requires digits != [] && AllDigits(digits)
    ensures IsChapterImageId(PublicId(ChapterFolder(title, digits), filename), title)
  {
    var head := title + "/chapter-";
    var id := PublicId(ChapterFolder(title, digits), filename);
    assert id == head + (digits + "/" + filename);
    assert id[..|head|] == head;
    var rest := id[|head|..];
    assert rest == digits + ("/" + filename);
    LeadingDigitsOfRun(digits, "/" + filename);
  }

  /** The pre-check key renders the float ("2.0", "1e-05"), the pipeline
      stores under the digit run ("2"): a rendering that is not a bare digit
      run and has no '/' is never a prefix of a chapter image id. */
  lemma {:induction false} PrefilterKeyMissesChapterIds(title: string, rendered: string, id: string)
    requires !AllDigits(rendered) && '/' !in rendered
    requires IsChapterImageId(id, title)
    ensures !(PrefilterKey(title, rendered) <= id)
  {
    var head := title + "/chapter-";
    var rest := id[|head|..];
    var d := LeadingDigits(rest);
    var key := PrefilterKey(title, rendered);
    var p :| 0 <= p < |rendered| && !IsDigit(rendered[p]);
    var q := if p < |d| then p else |d|;
    assert rendered[q] != rest[q] by {
      if p < |d| {
        assert rest[p] == d[p] && IsDigit(d[p]);
      } else {
        assert rendered[|d|] != '/';
      }
    }
    assert key == head + rendered;
    assert key[|head| + q] == rendered[q];
    assert id[|head| + q] == rest[q];
  }

  /** Every id the store holds under `title/chapter-` is a chapter image id;
      ids elsewhere (the cover, other comics) are unconstrained. */
  predicate ChapterIdsWellFormed(store: Store, title: string)
  {
    forall id :: id in store && title + "/chapter-" <= id ==> IsChapterImageId(id, title)
  }

  /** A key that extends `head` prefixes only ids that `head` prefixes. */
  lemma ExtendedPrefix(head: string, tail: string, id: string)
    requires head + tail <= id
    ensures head <= id
  {
    assert id[..|head|] == (head + tail)[..|head|];
  }

  /** Hence, whatever the float rendering writes for a chapter number (it is
      never a bare digit run: "2.0", "12.5", "1e+16"), the pre-check drops
      nothing however many chapters the pipeline has already stored: skipping
      is left to the pipeline's own check. */
  lemma PrefilterDropsNothing(chapters: seq<Chapter>, title: string, render: real -> string, store: Store,
                              fault: string -> bool)
    requires ChapterIdsWellFormed(store, title)
    requires forall i :: 0 <= i < |chapters| ==> !AllDigits(render(chapters[i].number)) && '/' !in render(chapters[i].number)
    ensures DropExisting(chapters, title, render, store, fault) == chapters
  {
    forall i | 0 <= i < |chapters| ensures NotYetStored(chapters[i], title, render, store, fault) {
      var rendered := render(chapters[i].number);
      var key := PrefilterKey(title, rendered);
      forall id | id in store ensures !(key <= id) {
        if key <= id {
          ExtendedPrefix(title + "/chapter-", rendered, id);
          PrefilterKeyMissesChapterIds(title, rendered, id);
        }
      }
      AnyUnderIsPrefixTest(store, key, fault(key));
    }
    DropNothingWhenNoneStored(chapters, title, render, store, fault);
  }

  /** The cover main uploads before the pre-check is not under
      `title/chapter-`, so it keeps the store's chapter ids well formed. */
  lemma CoverKeepsChapterIdsWellFormed(store: Store, title: string)
    requires ChapterIdsWellFormed(store, title)
    ensures ChapterIdsWellFormed(store + {PublicId(title, "cover")}, title)
  {
    var cover := PublicId(title, "cover");
    var head := title + "/chapter-";
    assert cover[|title| + 2] == 'o' && head[|title| + 2] == 'h';
    assert !(head <= cover);
  }

  /** Where main stops. */
  datatype Stop =
    | PageUnavailable        // fetch_data_with_retry raised
    | NoMetadata             // scrape_comic_meta returned None
    | NoChapters             // get_chapter_list returned []
    | BadStart               // float() refused the start; the outer handler returns
    | NothingNew             // every selected chapter was filtered out
    | Dispatch(chapters: seq<Chapter>)  // the chapters handed to the pipeline

  datatype RunReport = RunReport(stop: Stop, db: ComicDb, store: Store, log: seq<Event>)

  /** What the page scrape and the upload host answer during main. */
  datatype Environment = Environment(
    comicPage: nat -> Fetcher.PageOutcome,   // fetch_data_with_retry's attempts
    links: seq<ChapterLink>,                 // chapter links in the fetched page
    metaPage: Fetcher.PageOutcome,           // scrape_comic_meta's own GET
    fields: MetaFields,
    coverSrc: Option<string>,
    coverFault: bool,
    coverAnswer: nat -> ImageOutcome,
    coverUpload: UploadOutcome,
    dbFault: bool,
    existsFault: string -> bool)

  /** The metadata scrape main performs. */
  function MetaOf(comicUrl: string, title: string, env: Environment, store: Store): MetaScrape
  {
    ScrapeComicMeta(comicUrl, env.metaPage, env.fields, env.coverSrc, title, env.coverFault, env.coverAnswer,
                    env.coverUpload, store)
  }

  /** `main(title)` up to the hand-off, for the comic page `comicUrl`, the
      start read from the prompt, the clock reading `now` and the float
      rendering `render`. Any exception ends it in the outer handler. */
  function Main(comicUrl: string, title: string, env: Environment, start: StartChoice, now: int,
                render: real -> string, db: ComicDb, store: Store): (r: RunReport)
    ensures r.stop.Dispatch? ==>
      && r.stop.chapters != []
      && SortedByNumber(r.stop.chapters)
      && InOrderWithin(r.stop.chapters, GetChapterList(env.links))
      && forall c :: c in r.stop.chapters ==>
           && c in GetChapterList(env.links)
           && Allows(start, c)
           && NotYetStored(c, title, render, r.store, env.existsFault)
    ensures r.stop.Dispatch? ==>
      r.stop.chapters == DropExisting(KeepFromStart(GetChapterList(env.links), start), title, render, r.store, env.existsFault)
    ensures r.stop.NothingNew? ==>
      DropExisting(KeepFromStart(GetChapterList(env.links), start), title, render, r.store, env.existsFault) == []
    ensures r.stop.Dispatch? || r.stop.NothingNew? ==>
      forall c :: c in GetChapterList(env.links) && Allows(start, c) && NotYetStored(c, title, render, r.store, env.existsFault)
        ==> r.stop.Dispatch? && c in r.stop.chapters
    ensures !(r.stop.Dispatch? || r.stop.NothingNew?) ==> r.db == db
    ensures r.stop.Dispatch? || r.stop.NothingNew? ==>
      && MetaOf(comicUrl, title, env, store).meta.Some?
      && r.db == SaveComicMetadata(db, MetaOf(comicUrl, title, env, store).meta.value, title, now, env.dbFault)
    ensures GetChapterList(env.links) == [] ==> r.db == db && !r.stop.Dispatch?
    ensures start.Unparsable? ==> r.db == db && !r.stop.Dispatch?
    ensures r.store == store || r.store == store + {PublicId(title, "cover")}
    ensures Requests(r.log) <= Fetcher.MAX_RETRIES + 1 + DOWNLOAD_RETRIES
  {
    var fetched := Fetcher.FetchDataWithRetry(comicUrl, Fetcher.MAX_RETRIES, env.comicPage);
    if !(fetched.result.Returned? && fetched.result.value.Some?) then
      RunReport(PageUnavailable, db, store, fetched.log)
    else
      var m := MetaOf(comicUrl, title, env, store);
      MetaRequests(comicUrl, title, env, store);
      var log := fetched.log + m.log;
      CountAppend(fetched.log, m.log, IsGet);
      if m.meta.None? then RunReport(NoMetadata, db, m.store, log)
      else
        var chapters := GetChapterList(env.links);
        if chapters == [] then RunReport(NoChapters, db, m.store, log)
        else if start.Unparsable? then RunReport(BadStart, db, m.store, log)
        else
          var saved := SaveComicMetadata(db, m.meta.value, title, now, env.dbFault);
          var pending := DropExisting(KeepFromStart(chapters, start), title, render, m.store, env.existsFault);
          InOrderWithinTransitive(pending, KeepFromStart(chapters, start), chapters);
          if pending == [] then RunReport(NothingNew, saved, m.store, log)
          else RunReport(Dispatch(pending), saved, m.store, log)
  }

  /** The metadata scrape makes its own GET and at most one cover download. */
  lemma MetaRequests(comicUrl: string, title: string, env: Environment, store: Store)
    ensures Requests(MetaOf(comicUrl, title, env, store).log) <= 1 + DOWNLOAD_RETRIES
  {
    var m := MetaOf(comicUrl, title, env, store);
    if env.metaPage.PageOk? && env.coverSrc.Some? {
      var cover := HandleCoverImage(env.coverSrc.value, title, env.coverFault, env.coverAnswer, env.coverUpload, store);
      CountAppend([Get(comicUrl)], cover.log, IsGet);
      assert Requests([Get(comicUrl)]) == 1 by { assert [Get(comicUrl)][1..] == []; }
    } else {
      assert m.log == [Get(comicUrl)];
      assert Requests([Get(comicUrl)]) == 1 by { assert [Get(comicUrl)][1..] == []; }
    }
  }

  /** Chapters 1, 2, 2.5 and 3 with start 2 select 2, 2.5 and 3; a start of
      0 selects all four. */
  lemma StartTwoSelectsFromTwo(u1: string, u2: string, u25: string, u3: string)
    ensures var cs := [Chapter(1.0, u1), Chapter(2.0, u2), Chapter(2.5, u25), Chapter(3.0, u3)];
      && KeepFromStart(cs, StartAt(2.0)) == cs[1..]
      && KeepFromStart(cs, StartAt(0.0)) == cs
      && KeepFromStart(cs, AllChapters) == cs
  {
    var cs := [Chapter(1.0, u1), Chapter(2.0, u2), Chapter(2.5, u25), Chapter(3.0, u3)];
    assert cs[1..][1..] == cs[2..];
    assert cs[2..][1..] == cs[3..];
    assert cs[3..][1..] == [];
    KeepAllWhenAllAllowed(cs[1..], StartAt(2.0));
    KeepAllWhenAllAllowed(cs, StartAt(0.0));
    KeepAllWhenAllAllowed(cs, AllChapters);
  }
}

=== FILE: pipeline.dfy ===
/** `scrape_chapter_images`: one chapter's pipeline. The chapter key comes
    from the digit run after "chapter-" in its URL; a chapter whose key
    prefixes some stored id is skipped before any request; otherwise the
    page is fetched once and its images are downloaded in order. Image `j`
    of the page meets `answers(j)` and `uploads(j)`. */
module ChapterPipeline {
  import opened Effects
  import opened Text
  import opened AssetStore
  import opened Downloader
  import Fetcher

  const URL_MARKER := "chapter-"

  /** Group 1 of `re.search(r'chapter-(\d+)', url)`. */
  function ChapterDigits(url: string): (d: Option<string>)
    ensures d.Some? ==> d.value != [] && AllDigits(d.value)
    ensures d.None? <==> forall i :: !MarkerAt(url, URL_MARKER, i)
  {
    match FindMarker(url, URL_MARKER, 0)
    case None => None
    case Some(i) => Some(LeadingDigits(url[i + 8..]))
  }

  /** The key is the whole digit run after the leftmost "chapter-" that a
      digit follows: for a URL `p + "chapter-" + D + t` with D a digit run, t
      empty or starting with a non-digit, and no such "chapter-" inside the
      first |p| characters, the key is D. */
  lemma {:induction false} ChapterDigitsOfUrl(p: string, digits: string, t: string)
    requires digits != [] && AllDigits(digits) && (t == [] || !IsDigit(t[0]))
    requires forall i :: 0 <= i < |p| ==> !MarkerAt(p + URL_MARKER + digits + t, URL_MARKER, i)
    ensures ChapterDigits(p + URL_MARKER + digits + t) == Some(digits)
  {
    var url := p + URL_MARKER + digits + t;
    assert url == p + URL_MARKER + (digits + t);
    MarkerBeforeRun(p, URL_MARKER, digits + t);
    LeftmostMarker(url, URL_MARKER, |p|);
    LeadingDigitsOfRun(digits, t);
  }

  /** A fractional chapter's URL keeps only its whole part: "chapter-12-5"
      and "chapter-12" give the same key. */
  lemma HalfChapterSharesKey()
    ensures ChapterDigits("chapter-12-5") == Some("12")
    ensures ChapterDigits("chapter-12") == Some("12")
  {
    assert MarkerAt("chapter-12-5", URL_MARKER, 0);
    assert "chapter-12-5"[8..] == "12-5";
    assert LeadingDigits("12-5") == "12" by {
      assert "12-5"[2] == '-';
    }
    assert MarkerAt("chapter-12", URL_MARKER, 0);
    assert "chapter-12"[8..] == "12";
    assert LeadingDigits("12") == "12";
  }

  /** `f"{comic_slug}/chapter-{chapter_num}"` */
  function ChapterFolder(slug: string, digits: string): string
  {
    slug + "/chapter-" + digits
  }

  /** The ids the images `i..` of a chapter can be uploaded under. */
  function ChapterIds(slug: string, digits: string, images: seq<string>, i: nat): set<string>
  {
    set j | i <= j < |images| :: PublicId(ChapterFolder(slug, digits), Stem(images[j]))
  }

  /** The download loop over images `i..`: `urls` keeps the non-empty URLs;
      `failed` records an exception, which ends the loop and the chapter. */
  datatype Batch = Batch(urls: seq<string>, failed: bool, log: seq<Event>, store: Store)

  function DownloadEach(images: seq<string>, slug: string, digits: string, answers: nat -> nat -> ImageOutcome,
                        uploads: nat -> UploadOutcome, store: Store, i: nat): (b: Batch)
    requires i <= |images| && digits != ""
    ensures forall k :: 0 <= k < |b.urls| ==> b.urls[k] != ""
    ensures |b.urls| <= |images| - i
    ensures store <= b.store <= store + ChapterIds(slug, digits, images, i)
    ensures Requests(b.log) <= DOWNLOAD_RETRIES * (|images| - i)
    ensures Uploads(b.log) <= |images| - i
    decreases |images| - i
  {
    if i == |images| then Batch([], false, [], store)
    else
      var t := DownloadImage(images[i], slug, digits, false, DOWNLOAD_RETRIES, answers(i), uploads(i), store);
      ImageStaysInChapter(images, slug, digits, answers, uploads, store, i);
      match t.result
      case Raised(_) => Batch([], true, t.log, t.store)
      case Returned(u) =>
        var rest := DownloadEach(images, slug, digits, answers, uploads, t.store, i + 1);
        StepCounts(t.log, rest.log, |images| - i - 1);
        var urls := Kept(u) + rest.urls;
        assert forall k :: 0 <= k < |urls| ==> urls[k] != "" by {
          forall k | 0 <= k < |urls| ensures urls[k] != "" {
            if k >= |Kept(u)| { assert urls[k] == rest.urls[k - |Kept(u)|]; }
          }
        }
        Batch(urls, rest.failed, t.log + rest.log, rest.store)
  }

  /** `[u]` when `if cloudinary_url:` lets `u` through, else []. */
  function Kept(u: Option<string>): (r: seq<string>)
    ensures |r| <= 1
    ensures |r| == 1 <==> u.Some? && u.value != ""
    ensures |r| == 1 ==> r[0] == u.value
  {
    if u.Some? && u.value != "" then [u.value] else []
  }

  /** A download that returns a non-empty URL uploaded its image: the id
      of the image under the chapter folder is stored. */
  lemma KeptUrlStored(images: seq<string>, slug: string, digits: string, answers: nat -> nat -> ImageOutcome,
                      uploads: nat -> UploadOutcome, store: Store, i: nat)
    requires i < |images| && digits != ""
    ensures var t := DownloadImage(images[i], slug, digits, false, DOWNLOAD_RETRIES, answers(i), uploads(i), store);
      t.result.Returned? && Kept(t.result.value) != [] ==> PublicId(ChapterFolder(slug, digits), Stem(images[i])) in t.store
  {
    var t := DownloadImage(images[i], slug, digits, false, DOWNLOAD_RETRIES, answers(i), uploads(i), store);
    if t.result.Returned? && Kept(t.result.value) != [] {
      assert Delivered(t);
      assert uploads(i).Uploaded?;
    }
  }

  /** A loop that returned any URL leaves its chapter folder non-empty. */
  lemma {:induction false} UrlsLeaveFolder(images: seq<string>, slug: string, digits: string, answers: nat -> nat -> ImageOutcome,
                                           uploads: nat -> UploadOutcome, store: Store, i: nat)
    requires i <= |images| && digits != ""
    ensures var b := DownloadEach(images, slug, digits, answers, uploads, store, i);
      |b.urls| > 0 ==> FolderExists(b.store, ChapterFolder(slug, digits), false)
    decreases |images| - i
  {
    if i < |images| {
      var t := DownloadImage(images[i], slug, digits, false, DOWNLOAD_RETRIES, answers(i), uploads(i), store);
      KeptUrlStored(images, slug, digits, answers, uploads, store, i);
      if t.result.Returned? {
        var rest := DownloadEach(images, slug, digits, answers, uploads, t.store, i + 1);
        UrlsLeaveFolder(images, slug, digits, answers, uploads, t.store, i + 1);
        StoredIdLeavesFolder(t.store, rest.store, ChapterFolder(slug, digits), Stem(images[i]));
      }
    }
  }

  /** An image whose upload succeeded stays uploaded, whatever the later
      images do, a download that raises included: once the loop reaches
      image j (no earlier download raised) and j's upload succeeds, its id
      is in the store the loop leaves. */
  lemma {:induction false} DeliveredStaysStored(images: seq<string>, slug: string, digits: string,
                                                answers: nat -> nat -> ImageOutcome, uploads: nat -> UploadOutcome,
                                                store: Store, i: nat, j: nat)
    requires i <= j < |images| && digits != ""
    requires forall m :: i <= m < j ==> ImageResult(images, slug, digits, answers, uploads, m).Returned?
    requires ImageResult(images, slug, digits, answers, uploads, j).Returned?
    requires ImageResult(images, slug, digits, answers, uploads, j).value.Some? && uploads(j).Uploaded?
    ensures PublicId(ChapterFolder(slug, digits), Stem(images[j])) in DownloadEach(images, slug, digits, answers, uploads, store, i).store
    decreases j - i
  {
    var t := DownloadImage(images[i], slug, digits, false, DOWNLOAD_RETRIES, answers(i), uploads(i), store);
    DownloadIgnoresStore(images[i], slug, digits, false, DOWNLOAD_RETRIES, answers(i), uploads(i), store, {}, 0);
    assert t.result == ImageResult(images, slug, digits, answers, uploads, i);
    var rest := DownloadEach(images, slug, digits, answers, uploads, t.store, i + 1);
    if i == j {
      assert Delivered(t);
      if i + 1 < |images| {
        assert t.store <= rest.store;
      }
    } else {
      DeliveredStaysStored(images, slug, digits, answers, uploads, t.store, i + 1, j);
    }
  }

  /** An id stored before more downloads keeps its folder non-empty after them. */
  lemma StoredIdLeavesFolder(before: Store, after: Store, folder: string, filename: string)
    requires before <= after
    ensures PublicId(folder, filename) in before ==> FolderExists(after, folder, false)
  {
    if PublicId(folder, filename) in before {
      IdUnderFolder(after, folder, filename);
    }
  }

  /** One more image's download keeps the loop's request and upload bounds. */
  lemma StepCounts(a: seq<Event>, b: seq<Event>, n: nat)
    requires Requests(a) <= DOWNLOAD_RETRIES && Uploads(a) <= 1
    requires Requests(b) <= DOWNLOAD_RETRIES * n && Uploads(b) <= n
    ensures Requests(a + b) <= DOWNLOAD_RETRIES * (n + 1) && Uploads(a + b) <= n + 1
  {
    CountAppend(a, b, IsGet);
    CountAppend(a, b, IsUpload);
  }

  /** Image `i`'s download adds at most its own id under the chapter folder. */
  lemma ImageStaysInChapter(images: seq<string>, slug: string, digits: string, answers: nat -> nat -> ImageOutcome,
                            uploads: nat -> UploadOutcome, store: Store, i: nat)
    requires i < |images| && digits != ""
    ensures var t := DownloadImage(images[i], slug, digits, false, DOWNLOAD_RETRIES, answers(i), uploads(i), store);
      && store <= t.store <= store + ChapterIds(slug, digits, images, i)
      && ChapterIds(slug, digits, images, i + 1) <= ChapterIds(slug, digits, images, i)
  {
    var t := DownloadImage(images[i], slug, digits, false, DOWNLOAD_RETRIES, answers(i), uploads(i), store);
    var id := PublicId(ChapterFolder(slug, digits), Stem(images[i]));
    assert t.store <= store + {id};
    assert id in ChapterIds(slug, digits, images, i);
  }

  /** What download_image returns for image `j`; it does not depend on the store. */
  function ImageResult(images: seq<string>, slug: string, digits: string, answers: nat -> nat -> ImageOutcome,
                       uploads: nat -> UploadOutcome, j: nat): Outcome<Option<string>>
    requires j < |images|
  {
    DownloadImage(images[j], slug, digits, false, DOWNLOAD_RETRIES, answers(j), uploads(j), {}).result
  }

  /** The results of the downloads of images `i..`, each as if run alone. */
  function Results(images: seq<string>, slug: string, digits: string, answers: nat -> nat -> ImageOutcome,
                   uploads: nat -> UploadOutcome, i: nat): (rs: seq<Outcome<Option<string>>>)
    requires i <= |images|
    ensures |rs| == |images| - i
    decreases |images| - i
  {
    if i == |images| then []
    else [ImageResult(images, slug, digits, answers, uploads, i)] + Results(images, slug, digits, answers, uploads, i + 1)
  }

  /** The URLs `if cloudinary_url:` lets through, in order. */
  function KeptUrls(results: seq<Outcome<Option<string>>>): seq<string>
  {
    if |results| == 0 then []
    else (if results[0].Returned? then Kept(results[0].value) else []) + KeptUrls(results[1..])
  }

  predicate AnyRaised(results: seq<Outcome<Option<string>>>)
  {
    exists k :: 0 <= k < |results| && results[k].Raised?
  }

  lemma AnyRaisedTail(rs: seq<Outcome<Option<string>>>)
    requires |rs| > 0 && rs[0].Returned?
    ensures AnyRaised(rs) <==> AnyRaised(rs[1..])
  {
    if AnyRaised(rs) {
      var k :| 0 <= k < |rs| && rs[k].Raised?;
      assert rs[1..][k - 1] == rs[k];
    }
  }

  /** The loop fails exactly when some image's download raises; otherwise it
      returns the non-empty URLs of the downloads, in page order. */
  lemma {:induction false} DownloadEachInOrder(images: seq<string>, slug: string, digits: string, answers: nat -> nat -> ImageOutcome,
                                               uploads: nat -> UploadOutcome, store: Store, i: nat)
    requires i <= |images| && digits != ""
    ensures DownloadEach(images, slug, digits, answers, uploads, store, i).failed
        <==> AnyRaised(Results(images, slug, digits, answers, uploads, i))
    ensures !DownloadEach(images, slug, digits, answers, uploads, store, i).failed ==>
      DownloadEach(images, slug, digits, answers, uploads, store, i).urls
        == KeptUrls(Results(images, slug, digits, answers, uploads, i))
    decreases |images| - i
  {
    if i < |images| {
      var rs := Results(images, slug, digits, answers, uploads, i);
      DownloadIgnoresStore(images[i], slug, digits, false, DOWNLOAD_RETRIES, answers(i), uploads(i), store, {}, 0);
      var t := DownloadImage(images[i], slug, digits, false, DOWNLOAD_RETRIES, answers(i), uploads(i), store);
      assert rs[0] == t.result;
      if t.result.Returned? {
        DownloadEachInOrder(images, slug, digits, answers, uploads, t.store, i + 1);
        var rs' := Results(images, slug, digits, answers, uploads, i + 1);
        assert rs[1..] == rs';
        AnyRaisedTail(rs);
      }
    }
  }

  /** What one chapter's scrape produced: the URLs it returns and its effects. */
  datatype ChapterScrape = ChapterScrape(urls: seq<string>, log: seq<Event>, store: Store)

  /** `scrape_chapter_images(session, url, slug)`. `folderFault` stands for the
      folder query raising (read as absent), `page` for the one plain GET of
      the chapter page and `images` for the image URLs its markup lists.
      Every exception, including those of the downloads, yields []; images
      uploaded before it stay uploaded. */
  function ScrapeChapterImages(url: string, slug: string, store: Store, folderFault: bool, page: Fetcher.PageOutcome,
                               images: seq<string>, answers: nat -> nat -> ImageOutcome, uploads: nat -> UploadOutcome): (r: ChapterScrape)
    ensures ChapterDigits(url).None? ==> r == ChapterScrape([], [], store)
    ensures ChapterDigits(url).Some? && FolderExists(store, ChapterFolder(slug, ChapterDigits(url).value), folderFault) ==>
      r == ChapterScrape([], [], store)
    ensures page.PageFailed? ==> r.urls == [] && r.store == store && Requests(r.log) <= 1
    ensures forall k :: 0 <= k < |r.urls| ==> r.urls[k] != ""
    ensures |r.urls| <= |images|
    ensures Requests(r.log) <= 1 + DOWNLOAD_RETRIES * |images|
    ensures store <= r.store
    ensures ChapterDigits(url).Some? ==> r.store <= store + ChapterIds(slug, ChapterDigits(url).value, images, 0)
  {
    match ChapterDigits(url)
    case None => ChapterScrape([], [], store)
    case Some(digits) =>
      if FolderExists(store, ChapterFolder(slug, digits), folderFault) then ChapterScrape([], [], store)
      else match page
        case PageFailed(_) =>
          assert Requests([Get(url)]) == 1 by { assert [Get(url)][1..] == []; }
          ChapterScrape([], [Get(url)], store)
        case PageOk(_) =>
          var b := DownloadEach(images, slug, digits, answers, uploads, store, 0);
          CountAppend([Get(url)], b.log, IsGet);
          assert Requests([Get(url)]) == 1 by { assert [Get(url)][1..] == []; }
          ChapterScrape(if b.failed then [] else b.urls, [Get(url)] + b.log, b.store)
  }

  /** When the page is fetched, the chapter returns [] if some download
      raises, and otherwise the non-empty upload URLs in page order. */
  lemma ScrapeReturnsUrlsInOrder(url: string, slug: string, store: Store, folderFault: bool, body: string,
                                 images: seq<string>, answers: nat -> nat -> ImageOutcome, uploads: nat -> UploadOutcome)
    requires ChapterDigits(url).Some?
    requires !FolderExists(store, ChapterFolder(slug, ChapterDigits(url).value), folderFault)
    ensures var rs := Results(images, slug, ChapterDigits(url).value, answers, uploads, 0);
      ScrapeChapterImages(url, slug, store, folderFault, Fetcher.PageOk(body), images, answers, uploads).urls
        == if AnyRaised(rs) then [] else KeptUrls(rs)
  {
    DownloadEachInOrder(images, slug, ChapterDigits(url).value, answers, uploads, store, 0);
  }

  /** The scrape keeps what its downloads uploaded: when the page is fetched
      and image j's upload succeeds with no earlier download raising, its id
      is stored afterwards, even when a later download raises and the chapter
      returns []. */
  lemma ScrapeKeepsDelivered(url: string, slug: string, store: Store, folderFault: bool, body: string,
                             images: seq<string>, answers: nat -> nat -> ImageOutcome, uploads: nat -> UploadOutcome, j: nat)
    requires ChapterDigits(url).Some?
    requires !FolderExists(store, ChapterFolder(slug, ChapterDigits(url).value), folderFault)
    requires j < |images|
    requires forall m :: 0 <= m < j ==> ImageResult(images, slug, ChapterDigits(url).value, answers, uploads, m).Returned?
    requires ImageResult(images, slug, ChapterDigits(url).value, answers, uploads, j).Returned?
    requires ImageResult(images, slug, ChapterDigits(url).value, answers, uploads, j).value.Some? && uploads(j).Uploaded?
    ensures PublicId(ChapterFolder(slug, ChapterDigits(url).value), Stem(images[j]))
         in ScrapeChapterImages(url, slug, store, folderFault, Fetcher.PageOk(body), images, answers, uploads).store
  {
    DeliveredStaysStored(images, slug, ChapterDigits(url).value, answers, uploads, store, 0, j);
  }

  /** Resuming: once a scrape returned a URL or uploaded anything, scraping
      any URL with the same chapter digits again (with a working query) is
      skipped without a request. */
  lemma SecondScrapeSkips(url: string, slug: string, store: Store, folderFault: bool, page: Fetcher.PageOutcome,
                          images: seq<string>, answers: nat -> nat -> ImageOutcome, uploads: nat -> UploadOutcome,
                          url2: string, page2: Fetcher.PageOutcome, images2: seq<string>,
                          answers2: nat -> nat -> ImageOutcome, uploads2: nat -> UploadOutcome)
    requires ScrapeChapterImages(url, slug, store, folderFault, page, images, answers, uploads).urls != []
          || ScrapeChapterImages(url, slug, store, folderFault, page, images, answers, uploads).store != store
    requires ChapterDigits(url2) == ChapterDigits(url)
    ensures var after := ScrapeChapterImages(url, slug, store, folderFault, page, images, answers, uploads).store;
      ScrapeChapterImages(url2, slug, after, false, page2, images2, answers2, uploads2) == ChapterScrape([], [], after)
  {
    UploadLeavesFolder(url, slug, store, folderFault, page, images, answers, uploads);
  }

  /** A scrape that returned a URL, or uploaded anything, leaves its chapter
      folder non-empty. */
  lemma UploadLeavesFolder(url: string, slug: string, store: Store, folderFault: bool, page: Fetcher.PageOutcome,
                           images: seq<string>, answers: nat -> nat -> ImageOutcome, uploads: nat -> UploadOutcome)
    requires ScrapeChapterImages(url, slug, store, folderFault, page, images, answers, uploads).urls != []
          || ScrapeChapterImages(url, slug, store, folderFault, page, images, answers, uploads).store != store
    ensures ChapterDigits(url).Some?
    ensures FolderExists(ScrapeChapterImages(url, slug, store, folderFault, page, images, answers, uploads).store,
                         ChapterFolder(slug, ChapterDigits(url).value), false)
  {
    var r := ScrapeChapterImages(url, slug, store, folderFault, page, images, answers, uploads);
    if r.store != store {
      NewIdUnderFolder(store, r.store, slug, ChapterDigits(url).value, images);
    } else {
      UrlsLeaveFolder(images, slug, ChapterDigits(url).value, answers, uploads, store, 0);
    }
  }

  /** A store that grew only by ids of a chapter's images has that chapter's
      folder non-empty. */
  lemma NewIdUnderFolder(store: Store, after: Store, slug: string, digits: string, images: seq<string>)
    requires store <= after <= store + ChapterIds(slug, digits, images, 0) && after != store
    ensures FolderExists(after, ChapterFolder(slug, digits), false)
  {
    var folder := ChapterFolder(slug, digits);
    var id := NewId(store, after);
    var j :| 0 <= j < |images| && id == PublicId(folder, Stem(images[j]));
    IdUnderFolder(after, folder, Stem(images[j]));
  }

  lemma NewId(before: Store, after: Store) returns (id: string)
    requires before <= after && before != after
    ensures id in after && id !in before
  {
    var d := after - before;
    if d == {} {
      forall x | x in after ensures x in before {
        assert x !in d;
      }
      assert false;
    }
    id :| id in d;
  }

  /** The key is a string prefix, not a path segment: once chapter 10 holds
      an image, chapter 1 is skipped as if it were complete. */
  lemma ChapterTenHidesChapterOne(url: string, slug: string, store: Store, page: Fetcher.PageOutcome, filename: string,
                                  images: seq<string>, answers: nat -> nat -> ImageOutcome, uploads: nat -> UploadOutcome)
    requires ChapterDigits(url) == Some("1")
    requires PublicId(ChapterFolder(slug, "10"), filename) in store
    ensures ScrapeChapterImages(url, slug, store, false, page, images, answers, uploads) == ChapterScrape([], [], store)
  {
    var folder := ChapterFolder(slug, "1");
    var id := PublicId(ChapterFolder(slug, "10"), filename);
    assert id == folder + "0/" + filename;
    assert folder <= id;
    AnyUnderIsPrefixTest(store, folder, false);
  }
}

=== FILE: sanitize.dfy ===
/** `sanitize_filename`: drop the characters Windows forbids in file names,
    apply NFKD normalisation, and strip surrounding whitespace. NFKD needs
    the Unicode tables and is a parameter. */
module Sanitize {

  /** The character class `[<>:"/\\|?*]`. */
  const FORBIDDEN := "<>:\"/\\|?*"

  predicate IsForbidden(c: char)
  {
    c in FORBIDDEN
  }

  /** `str.isspace()` for one character: the code points Python counts as
      whitespace (separators of category Zs and bidirectional classes WS, B
      and S). */
  predicate IsSpace(c: char)
  {
    var n := c as int;
    || 0x09 <= n <= 0x0D
    || 0x1C <= n <= 0x20
    || n == 0x85 || n == 0xA0 || n == 0x1680
    || 0x2000 <= n <= 0x200A
    || n == 0x2028 || n == 0x2029 || n == 0x202F || n == 0x205F || n == 0x3000
  }

  /** `re.sub(r'[<>:"/\\|?*]', '', s)`: the other characters, in order. */
  function RemoveForbidden(s: string): (r: string)
    ensures |r| <= |s|
    ensures forall i :: 0 <= i < |r| ==> !IsForbidden(r[i])
    ensures forall c :: !IsForbidden(c) ==> multiset(r)[c] == multiset(s)[c]
  {
    if |s| == 0 then []
    else
      assert s == [s[0]] + s[1..];
      (if IsForbidden(s[0]) then [] else [s[0]]) + RemoveForbidden(s[1..])
  }

  /** The removal works character by character: a lone character is kept
      exactly when it is not in the class, and the removal from a
      concatenation is the concatenation of the removals. Together these fix
      the result, order included. */
  lemma RemoveForbiddenSingle(c: char)
    ensures RemoveForbidden([c]) == if IsForbidden(c) then [] else [c]
  {
    assert [c][1..] == [];
  }

  lemma {:induction false} RemoveForbiddenAppend(a: string, b: string)
    ensures RemoveForbidden(a + b) == RemoveForbidden(a) + RemoveForbidden(b)
    decreases |a|
  {
    if |a| == 0 {
      assert a + b == b;
    } else {
      var head := if IsForbidden(a[0]) then [] else [a[0]];
      assert (a + b)[0] == a[0];
      assert (a + b)[1..] == a[1..] + b;
      assert RemoveForbidden(a + b) == head + RemoveForbidden(a[1..] + b);
      assert RemoveForbidden(a) == head + RemoveForbidden(a[1..]);
      RemoveForbiddenAppend(a[1..], b);
      Regroup(head, RemoveForbidden(a[1..]), RemoveForbidden(b));
    }
  }

  lemma Regroup(x: string, y: string, z: string)
    ensures x + (y + z) == x + y + z
  {
  }

  /** A string free of the class passes through unchanged; in particular the
      removal is idempotent. */
  lemma {:induction false} RemoveForbiddenKeepsClean(s: string)
    requires forall i :: 0 <= i < |s| ==> !IsForbidden(s[i])
    ensures RemoveForbidden(s) == s
  {
    if |s| > 0 {
      RemoveForbiddenKeepsClean(s[1..]);
      assert s == [s[0]] + s[1..];
    }
  }

  /** The length of the run of whitespace `s` starts with. */
  function LeadingSpaces(s: string): (n: nat)
    ensures n <= |s|
    ensures forall k :: 0 <= k < n ==> IsSpace(s[k])
    ensures n == |s| || !IsSpace(s[n])
  {
    if |s| == 0 || !IsSpace(s[0]) then 0
    else
      var m := LeadingSpaces(s[1..]);
      assert forall k :: 1 <= k < 1 + m ==> s[k] == s[1..][k - 1];
      1 + m
  }

  /** The length of the run of whitespace `s` ends with. */
  function TrailingSpaces(s: string): (n: nat)
    ensures n <= |s|
    ensures forall k :: |s| - n <= k < |s| ==> IsSpace(s[k])
    ensures n == |s| || !IsSpace(s[|s| - n - 1])
  {
    if |s| == 0 || !IsSpace(s[|s| - 1]) then 0
    else
      var m := TrailingSpaces(s[..|s| - 1]);
      assert forall k :: |s| - 1 - m <= k < |s| - 1 ==> s[k] == s[..|s| - 1][k];
      1 + m
  }

  /** Neither the first nor the last character is whitespace. */
  predicate Unpadded(r: string)
  {
    r == [] || (!IsSpace(r[0]) && !IsSpace(r[|r| - 1]))
  }

  /** `str.strip()`: the infix of `s` that follows its leading whitespace and
      is followed only by whitespace, and neither starts nor ends with
      whitespace. */
  function Strip(s: string): (r: string)
    ensures |r| <= |s|
    ensures Unpadded(r)
    ensures LeadingSpaces(s) + |r| <= |s| && r == s[LeadingSpaces(s)..LeadingSpaces(s) + |r|]
    ensures forall k :: LeadingSpaces(s) + |r| <= k < |s| ==> IsSpace(s[k])
  {
    var a := LeadingSpaces(s);
    if a == |s| then
      assert s[0..0] == [];
      []
    else
      var b := TrailingSpaces(s);
      assert !IsSpace(s[a]);
      assert b < |s| - a;
      assert s[a..|s| - b] == s[a..a + (|s| - b - a)];
      s[a..|s| - b]
  }

  /** Every character Strip keeps comes from its argument. */
  lemma StripKeepsCharacters(s: string)
    ensures forall k :: 0 <= k < |Strip(s)| ==> Strip(s)[k] in s
  {
    var r := Strip(s);
    var i := LeadingSpaces(s);
    forall k | 0 <= k < |r| ensures r[k] in s {
      assert r[k] == s[i + k];
    }
  }

  /** Strip is idempotent. */
  lemma StripTwice(s: string)
    ensures Strip(Strip(s)) == Strip(s)
  {
    var r := Strip(s);
    if r != [] {
      assert LeadingSpaces(r) == 0;
      assert TrailingSpaces(r) == 0;
      assert r[0..|r|] == r;
    }
  }

  /** `sanitize_filename(s)`, with `nfkd` standing for
      `unicodedata.normalize('NFKD', ·)`. */
  function SanitizeFilename(s: string, nfkd: string -> string): (r: string)
    ensures Unpadded(r)
    ensures |r| <= |nfkd(RemoveForbidden(s))|
  {
    var normalised := nfkd(RemoveForbidden(s));
    Strip(normalised)
  }

  /** When normalisation leaves the cleaned text as it is (plain ASCII, for
      instance), the result holds none of the forbidden characters.
      Normalisation in general may introduce them again (NFKD maps U+FF0F,
      the fullwidth solidus, to '/'), so nothing stronger holds for an
      arbitrary `nfkd`. */
  lemma SanitizeCleanWhenNormalised(s: string, nfkd: string -> string)
    requires nfkd(RemoveForbidden(s)) == RemoveForbidden(s)
    ensures forall i :: 0 <= i < |SanitizeFilename(s, nfkd)| ==> !IsForbidden(SanitizeFilename(s, nfkd)[i])
  {
    var cleaned := RemoveForbidden(s);
    assert SanitizeFilename(s, nfkd) == Strip(cleaned);
    StripKeepsCharacters(cleaned);
  }

  /** Under the same condition, sanitising twice is sanitising once. */
  lemma SanitizeTwice(s: string, nfkd: string -> string)
    requires nfkd(RemoveForbidden(s)) == RemoveForbidden(s)
    requires nfkd(SanitizeFilename(s, nfkd)) == SanitizeFilename(s, nfkd)
    ensures SanitizeFilename(SanitizeFilename(s, nfkd), nfkd) == SanitizeFilename(s, nfkd)
  {
    var r := SanitizeFilename(s, nfkd);
    SanitizeCleanWhenNormalised(s, nfkd);
    RemoveForbiddenKeepsClean(r);
    StripTwice(RemoveForbidden(s));
  }
}

=== FILE: text.dfy ===
/** String pieces the scraper takes apart with regular expressions and
    `split`: digit runs, the leftmost "marker followed by a digit", the last
    path segment of a URL and the part of a name before its first dot. */
module Text {
  import opened Effects

  /** `\d` restricted to ASCII digits. */
  predicate IsDigit(c: char) { '0' <= c <= '9' }

  predicate AllDigits(s: string) { forall i :: 0 <= i < |s| ==> IsDigit(s[i]) }

  /** The longest run of digits `s` starts with, as a greedy `\d*` takes it. */
  function LeadingDigits(s: string): (d: string)
    ensures d <= s && AllDigits(d)
    ensures |d| == |s| || !IsDigit(s[|d|])
  {
    if |s| == 0 || !IsDigit(s[0]) then []
    else
      var rest := LeadingDigits(s[1..]);
      assert forall i :: 1 <= i <= |rest| ==> ([s[0]] + rest)[i] == rest[i - 1];
      [s[0]] + rest
  }

  /** A digit run followed by a non-digit, or by nothing, is exactly what
      the greedy `\d*` takes from their concatenation. */
  lemma LeadingDigitsOfRun(digits: string, tail: string)
    requires AllDigits(digits) && (tail == [] || !IsDigit(tail[0]))
    ensures LeadingDigits(digits + tail) == digits
  {
    var s := digits + tail;
    var d := LeadingDigits(s);
    assert forall k :: 0 <= k < |digits| ==> s[k] == digits[k] && IsDigit(s[k]);
    assert tail != [] ==> s[|digits|] == tail[0];
    assert |d| == |digits|;
    assert s[..|digits|] == digits;
  }

  function DigitValue(c: char): nat
    requires IsDigit(c)
  {
    c as int - '0' as int
  }

  /** The number a string of decimal digits denotes. */
  function DecimalValue(s: string): nat
    requires AllDigits(s)
  {
    if |s| == 0 then 0
    else 10 * DecimalValue(s[..|s| - 1]) + DigitValue(s[|s| - 1])
  }

  function Pow10(n: nat): (r: nat)
    ensures r >= 1
  {
    if n == 0 then 1 else 10 * Pow10(n - 1)
  }

  /** k decimal digits denote a number below 10^k. */
  lemma {:induction false} DecimalValueBelowPow10(s: string)
    requires AllDigits(s)
    ensures DecimalValue(s) < Pow10(|s|)
  {
    if |s| > 0 {
      DecimalValueBelowPow10(s[..|s| - 1]);
    }
  }

  /** Digits written after `a` shift its value by their count: the value of
      `a + b` is a·10^|b| plus the value of `b`. */
  lemma {:induction false} DecimalValueAppend(a: string, b: string)
    requires AllDigits(a) && AllDigits(b)
    ensures AllDigits(a + b)
    ensures DecimalValue(a + b) == DecimalValue(a) * Pow10(|b|) + DecimalValue(b)
    decreases |b|
  {
    if |b| == 0 {
      assert a + b == a;
    } else {
      var c := b[..|b| - 1];
      var d := b[|b| - 1];
      assert a + b == (a + c) + [d];
      AllDigitsAppend(a, c);
      DecimalValueAppend(a, c);
      var va, vc := DecimalValue(a), DecimalValue(c);
      var pc := Pow10(|c|);
      calc {
        DecimalValue(a + b);
        { assert (a + b)[..|a + b| - 1] == a + c; }
        10 * DecimalValue(a + c) + DigitValue(d);
        10 * (va * pc + vc) + DigitValue(d);
        { ShiftTen(va, pc); }
        va * (10 * pc) + (10 * vc + DigitValue(d));
      }
    }
  }

  lemma ShiftTen(x: int, y: int)
    ensures 10 * (x * y) == x * (10 * y)
  {
  }

  lemma AllDigitsAppend(a: string, c: string)
    requires AllDigits(a) && AllDigits(c)
    ensures AllDigits(a + c)
  {
    assert forall i :: 0 <= i < |a + c| ==> (a + c)[i] == if i < |a| then a[i] else c[i - |a|];
  }

  /** `marker` occurs at position `i` of `s` and a digit follows it. */
  predicate MarkerAt(s: string, marker: string, i: int)
  {
    0 <= i && i + |marker| < |s| && s[i..i + |marker|] == marker && IsDigit(s[i + |marker|])
  }

  /** The leftmost position, at or after `from`, where `marker` followed by a
      digit occurs: where `re.search` finds a pattern that starts with the
      literal `marker` and continues with `\d`. */
  function FindMarker(s: string, marker: string, from: nat): (r: Option<nat>)
    requires from <= |s|
    ensures r.Some? ==> from <= r.value && MarkerAt(s, marker, r.value)
    ensures r.Some? ==> forall j :: from <= j < r.value ==> !MarkerAt(s, marker, j)
    ensures r.None? ==> forall j :: from <= j ==> !MarkerAt(s, marker, j)
    decreases |s| - from
  {
    if from + |marker| >= |s| then None
    else if MarkerAt(s, marker, from) then Some(from)
    else FindMarker(s, marker, from + 1)
  }

  /** A marker occurrence with none before it is the one the search finds. */
  lemma LeftmostMarker(s: string, marker: string, i: nat)
    requires MarkerAt(s, marker, i)
    requires forall j :: 0 <= j < i ==> !MarkerAt(s, marker, j)
    ensures FindMarker(s, marker, 0) == Some(i)
  {
  }

  /** `marker` placed right before a run that starts with a digit occurs, at
      the join, followed by that run. */
  lemma MarkerBeforeRun(p: string, marker: string, run: string)
    requires run != [] && IsDigit(run[0])
    ensures MarkerAt(p + marker + run, marker, |p|)
    ensures (p + marker + run)[|p| + |marker|..] == run
  {
    var s := p + marker + run;
    assert s[|p|..|p| + |marker|] == marker;
    assert s[|p| + |marker|] == run[0];
  }

  /** Regrouping the tail of a concatenation. */
  lemma RegroupTail(x: string, a: string, b: string, c: string)
    ensures x + a + b + c == x + (a + b + c)
  {
  }

  /** Empty ends add nothing. */
  lemma EmptyEnds(a: string, b: string)
    ensures "" + a + b + "" == a + b
  {
  }

  lemma EmptyEnds4(a: string, b: string, c: string, d: string)
    ensures "" + a + b + c + d + "" == a + b + c + d
  {
  }

  /** What `s.split('/')[-1]` yields: everything after the last '/'. */
  function LastSegment(s: string): (r: string)
    ensures '/' !in r
    ensures |r| <= |s| && r == s[|s| - |r|..]
    ensures |r| == |s| || s[|s| - |r| - 1] == '/'
  {
    if |s| == 0 || s[|s| - 1] == '/' then []
    else LastSegment(s[..|s| - 1]) + [s[|s| - 1]]
  }

  /** What `s.split('.')[0]` yields: everything before the first '.'. */
  function BeforeDot(s: string): (r: string)
    ensures '.' !in r
    ensures r <= s
    ensures |r| == |s| || s[|r|] == '.'
  {
    if |s| == 0 || s[0] == '.' then []
    else
      var rest := BeforeDot(s[1..]);
      assert forall i :: 1 <= i <= |rest| ==> ([s[0]] + rest)[i] == rest[i - 1];
      [s[0]] + rest
  }

  /** The last segment of a path is whatever follows its final '/'. */
  lemma {:induction false} LastSegmentAfterSlash(p: string, s: string)
    requires '/' !in s
    ensures LastSegment(p + "/" + s) == s
    decreases |s|
  {
    var u := p + "/" + s;
    if |s| == 0 {
      assert u[|u| - 1] == '/';
    } else {
      var init := s[..|s| - 1];
      assert u[..|u| - 1] == p + "/" + init;
      PrefixLacks(init, s, '/');
      LastSegmentAfterSlash(p, init);
      assert s == init + [s[|s| - 1]];
    }
  }

  /** The part of a dotted name before its first '.'. */
  lemma {:induction false} BeforeDotOfDotted(a: string, b: string)
    requires '.' !in a
    ensures BeforeDot(a + "." + b) == a
    decreases |a|
  {
    var s := a + "." + b;
    if |a| == 0 {
      assert s[0] == '.';
    } else {
      assert s[1..] == a[1..] + "." + b;
      BeforeDotOfDotted(a[1..], b);
      assert a == [a[0]] + a[1..];
    }
  }

  /** A prefix lacks every character its whole string lacks. */
  lemma PrefixLacks(a: string, b: string, c: char)
    requires a <= b && c !in b
    ensures c !in a
  {
    forall i | 0 <= i < |a|
      ensures a[i] != c
    {
      assert a[i] == b[i];
    }
  }
}
